=== FILE: README.md ===
# optimisation — a Dafny model of the line searches and steepest descent

This project models the numerical core of the `optimisation` toolkit:

- the golden-section line search `goldensection` and its recursive
  subdivision `_gs`, and the Armijo backtracking search `backtracking`
  (`src/line_search.py`);
- the central-difference Jacobian `_create_jac` and the driver
  `steepest_descent` (`src/gradient_descent.py`);
- the call-counting `ObjectiveFunctionWrapper` (`src/wrappers.py`);
- the least-squares objective `least_squares`, its constructor and its
  `__call__` (`src/least_squares.py`);
- the result records `LineSearchResult` and `OptimisationResult`
  (`src/result.py`).

Numbers are exact `real`s and vectors are `seq<real>`. Objectives,
Jacobians and Hessians are arrow-typed parameters. `np.linalg.norm` is a
parameter `norm`; lemmas that need its meaning require `IsNorm(norm)`,
meaning it is non-negative and zero exactly at the zero vector. Likewise
1/φ is a parameter `iphi`, and `IsInvPhi(iphi)` states what the proofs
use: `0 < iphi < 1` and `iphi² = 1 - iphi`. The source's `iphi2 = (3 - √5)/2`
is `1 - iphi`. Every `raise` of the source is a constructor of
`Errors.Error`, returned through `Result`.

The modules are:

- `Errors`: the exception cases, `Option` and `Result`.
- `Arrays`: vector arithmetic, `Matrix`, and the array-likes that
  `least_squares` accepts: a list, a `range` or an ndarray.
- `Results`: the records.
- `LineSearch`: both line searches.
  - `_gs` is the pure recursive function `Gs`, with its keyword defaults
    as `Option` parameters.
  - `Gs` is proved equal to an uncached reference subdivision `GsRay` on
    the ray `x + s·dx`.
  - `goldensection` is a method with the 64-trial bracketing loop, proved
    against `GoldenSectionSpec`.
- `GradientDescent`:
  - `_jac` is a method filling an `array<real>`.
  - The driver's loop is the method `Descend`, proved against the
    recursive specification `DescentSpec`.
- `Wrappers`: the wrapper class, with counters as mutable fields.
- `LeastSquares`: the problem as a datatype with functions.

The three loops of the source are each proved equal to a reference
function that states what they compute: `GoldenSection` to
`GoldenSectionSpec`, `Backtracking` to `BacktrackingSpec` (with the test
sequence `Tests`), and `Descend` and the driver to `DescentSpec`, which
unrolls the iterations through `DescendFrom` and ends in the records
`Converged` (the `return` after `break`) and `Exhausted` (the loop's
`else`). The properties promised by the source are proved as lemmas about
these reference functions.

## Model

| member | source | states |
|---|---|---|
| Results.NewOptimisationResult | src/result.py:29-52 | the positional and counter fields are stored as given; `jac`, `info` and the solution path are the keyword's value when the keyword is present and `None` otherwise |
| Results.Defaults | src/result.py:29-52 | left to their defaults, `njev` and `nhev` are 0 and `jac`, `info` and the path are `None` |
| Results.PathStatus | src/result.py:54-58 | the status is "available" exactly when a solution path is stored and "unavailable" exactly when it is `None` |
| Wrappers.ObjectiveFunctionWrapper.constructor | src/wrappers.py:6-12 | the callables are stored as given and all three counters start at 0 |
| Wrappers.ObjectiveFunctionWrapper.F | src/wrappers.py:14-16 | `nfev` rises by one, the other counters are unchanged, and the result is the objective's value |
| Wrappers.ObjectiveFunctionWrapper.Jac | src/wrappers.py:18-20 | `njev` rises by one even when no Jacobian was given; the result is the Jacobian's value, or TypeError when it is `None` |
| Wrappers.ObjectiveFunctionWrapper.Hes | src/wrappers.py:22-24 | `nhev` rises by one even when no Hessian was given; the result is the Hessian's value, or TypeError when it is `None` |
| Wrappers.EvaluateAll | src/wrappers.py:14-16 | calling `f` on each of n points raises `nfev` by exactly n, leaves `njev` and `nhev` alone, and returns the objective's values in order |
| Wrappers.CountCalls | src/wrappers.py:6-24 | a fresh wrapper asked for n values, m Jacobians and k Hessians reports exactly n, m and k, whether or not a Jacobian or Hessian was supplied |
| LineSearch.Gs | src/line_search.py:28-48 | the point returned has the dimension of `x1`; the only failure is the recursion limit |
| LineSearch.GsRay | src/line_search.py:28-48 | reference subdivision of [a, a + w] along x + s·dx, recomputing both inner points each step; it fails only by the recursion limit |
| LineSearch.GsRayBracket | src/line_search.py:28-48 | every step keeps the new bracket inside the old one and shrinks it by 1/φ; the search stops with a bracket of width w·iphi^steps whose norm along dx is within the precision, returns its midpoint, and takes no more steps than the recursion allows |
| LineSearch.GsMatchesRay | src/line_search.py:28-48 | `_gs` with its handed-down points and values returns the reference's point and fails exactly when the reference does; because iphi² = 1 - iphi, it calls `func` once per step after the first, plus once for each value not handed down |
| LineSearch.FirstRiseSpec | src/line_search.py:51-60 | the first successful bracketing trial is the least k < 64 with f(x + 2^k·dx) > f(x), and there is none exactly when all 64 trials fail |
| LineSearch.StepEstimateOnRay | src/line_search.py:67 | for a point x + s·dx with dx free of zeros, the averaged quotient `t` recovers s |
| LineSearch.GoldenSectionSpec | src/line_search.py:4-69 | a successful search returns a point of the dimension of x |
| LineSearch.GoldenSection | src/line_search.py:4-69 | the bracketing loop and subdivision compute `GoldenSectionSpec`; RuntimeError is raised exactly when none of the 64 trials f(x + 2^k·dx) > f(x) succeeds |
| LineSearch.GoldenSectionErrors | src/line_search.py:50-63 | `goldensection` raises only RuntimeError from bracketing or RecursionError from `_gs` |
| LineSearch.GoldenSectionOutcome | src/line_search.py:50-69 | with k the first successful trial, success coincides with the reference subdivision on [0, 2^k]. The point lies on the ray inside that bracket. `nfev` is 2(k+1) from bracketing plus steps+1 from `_gs` (0 if no step). `t` is the point's step when dx has no zero entry and not finite when it has one |
| LineSearch.Backtracking | src/line_search.py:72-122 | the loop, with 2 calls to `func` and 1 to `jac` per test and t shrunk by beta after each failed test, computes `BacktrackingSpec` |
| LineSearch.TestsOutcome | src/line_search.py:114-116 | the tests from k on, none before k having passed, stop at the first power of beta satisfying the acceptance test, or report none up to the fuel |
| LineSearch.BacktrackingOutcome | src/line_search.py:72-122 | alpha outside (0, 0.5) raises ValueError. Otherwise the accepted step is t = beta^(n-1) after n tests, with 2n calls to `func` and n to `jac`. It satisfies the Armijo condition, no earlier power of beta does, and x + t·dx is returned; running out of fuel means no power below it passed |
| LineSearch.ArmijoStepDecreases | src/line_search.py:114-116 | a step accepted along a descent direction with alpha, beta > 0 strictly decreases the objective |
| LineSearch.OutOfRangeBetaAccepted | src/line_search.py:95-99 | as written, beta = 2 is not rejected, and the search can return a step t = 2 outside (0, 1] |
| LineSearch.BacktrackingIntended | src/line_search.py:90-122 | with the beta check raised, beta outside (0, 1) raises ValueError, and every accepted step lies in (0, 1] and satisfies the Armijo condition |
| GradientDescent.StepSize | src/gradient_descent.py:24-28 | for a non-negative norm the difference step is strictly positive, so the division never fails |
| GradientDescent.StepSizeCases | src/gradient_descent.py:24-28 | for a norm the step is positive, and it is exactly 1e-6 iff x is the zero vector or has norm 1 |
| GradientDescent.PerturbOneCoordinate | src/gradient_descent.py:31-32 | x ± dxi moves coordinate i by ±delta and leaves every other coordinate unchanged |
| GradientDescent.NumericalJacobian | src/gradient_descent.py:17-34 | ValueError exactly when x is not one column. Otherwise the column of central differences (f(x + dxi) - f(x - dxi))/(2·delta), with func called at exactly the pair x ± dxi for each entry |
| GradientDescent.CentralDifferenceLoop | src/gradient_descent.py:29-34 | the loop over the coordinates fills entry i with (f(x + dxi) - f(x - dxi))/(2·delta), dxi being delta on coordinate i only, and queries `func` at exactly those pairs |
| GradientDescent.CentralDifferenceLinear | src/gradient_descent.py:17-34 | on a linear objective c·x the central-difference estimate is exactly c, whatever the step |
| GradientDescent.EvaluateGradient | src/gradient_descent.py:67-68 | the gradient used is the supplied `jac(x)`, or the central-difference estimate when `jac` is `None` |
| GradientDescent.CountEntry | src/gradient_descent.py:96-97 | reading 'nfev' gives the search's count; any other key raises KeyError by subscript and reads 0 under `get(key, 0)` |
| GradientDescent.Iteration | src/gradient_descent.py:84-106 | a completed iteration keeps the point's dimension and the gradient's shape |
| GradientDescent.Iterate | src/gradient_descent.py:84-106 | one pass of the loop body computes `Iteration`: dispatch on `ls`, line search, counts, move, dispatch on `stop` and new gradient |
| GradientDescent.Descend | src/gradient_descent.py:81-125 | the loop with its `break` and `else` computes `DescentSpec` |
| GradientDescent.SteepestDescent | src/gradient_descent.py:38-125 | as written (`lsres["njev"]`), the driver computes `DescentSpec`, and every run with maxiter ≥ 1 raises |
| GradientDescent.SteepestDescentIntended | src/gradient_descent.py:38-125 | the driver reading the count with `get("njev", 0)` computes `DescentSpec` |
| GradientDescent.AsWrittenNeverReturns | src/gradient_descent.py:83-98 | as written, any run with maxiter ≥ 1 raises. For "golden-section" it raises the first line search's error, or KeyError('njev') when that search succeeds |
| GradientDescent.NoIterations | src/gradient_descent.py:81-116 | with maxiter ≤ 0 no dispatch happens: failure at x0 with niter = maxiter, nfev 0, njev 1, the information text, and `jac` at x0 |
| GradientDescent.SearchMethodDispatch | src/gradient_descent.py:86-94 | once an iteration runs, "backtracking" raises NotImplementedError and any other `ls` but "golden-section" raises ValueError |
| GradientDescent.StopCheckedAfterSearch | src/gradient_descent.py:96-106 | in the corrected driver (`get("njev", 0)`), an unknown `stop` is only noticed after the first line search: that search's error if it fails, otherwise the stopping-rule ValueError |
| GradientDescent.IterationOutcome | src/gradient_descent.py:84-106 | in the corrected driver (`get("njev", 0)`), an iteration either raises a line-search or dispatch error, or ran "golden-section" with "jac-norm", moved to the search's point, added exactly the search's nfev (the gradient's own calls to `func` are never counted), counted one Jacobian call and re-evaluated the gradient there |
| GradientDescent.DescendFromOutcome | src/gradient_descent.py:83-125 | in the corrected driver (`get("njev", 0)`), from any state after niter iterations there are two exits. Success: loop index in [niter, maxiter), the returned `jac` is the gradient at the returned x and its norm is below `tol`, njev = niter + 2, no info. Failure: niter = maxiter, the information text, njev = maxiter + 1, and `jac` the gradient at the returned x. The only errors are the line search's and the two dispatches' |
| GradientDescent.ConvergedFields | src/gradient_descent.py:118-125 | the record returned after `break` reports success, the current x, the 0-based loop index, the loop's nfev and njev (read before the final `jac` call), nhev 0, no info, and `jac` re-evaluated at x |
| GradientDescent.ExhaustedFields | src/gradient_descent.py:107-116 | the record returned by the loop's `else` reports failure, the current x, niter = maxiter, the loop's nfev and njev (read before the final `jac` call), nhev 0, the information text, and `jac` re-evaluated at x |
| GradientDescent.IntendedOutcome | src/gradient_descent.py:81-125 | the same two exits and error set for the whole corrected run from x0: on success the gradient at the returned x has norm below `tol`; on both exits `jac` is the gradient re-evaluated at the returned x |
| LeastSquares.Rows | src/least_squares.py:38 | a flat r·c array splits into r rows of c entries which, read one after another, give back the flat entries (row-major order) |
| LeastSquares.ToMatrix | src/least_squares.py:38 | `np.array(A, ndmin=2)` keeps a two-dimensional A: shape[0] rows of shape[1] entries holding A's entries in row-major order; anything else becomes the single row of its entries |
| LeastSquares.NewLeastSquares | src/least_squares.py:27-47 | ValueError exactly when A's row count differs from b's entry count; otherwise A promoted to two dimensions, b as a column, and a valid problem |
| LeastSquares.AsColumnEntries | src/least_squares.py:63-67 | every branch of the reshape gives x's entries in row-major order |
| LeastSquares.Call | src/least_squares.py:49-73 | ValueError exactly when x has a number of entries other than A's column count; otherwise a non-negative value |
| LeastSquares.SameEntriesSameValue | src/least_squares.py:63-67 | two inputs with the same entries give the same result, whatever their container |
| LeastSquares.RangeListArrayAgree | src/least_squares.py:63-67 | `range(n)`, the list of 0..n-1 and the ndarray of them give the same result |
| LeastSquares.ScaledProblem | src/least_squares.py:73 | scaling x and b by c scales the value by c² |
| LeastSquares.ZeroProblem | src/least_squares.py:73 | with A and b all zero the value is 0 for every x of the right size |
| LeastSquares.DocExample | src/least_squares.py:57-61 | A = [[1, 2], [3, 4]], b = [6, 7], x = [1, 1] gives 9 |

## Left out

- `solve_minimum` (`np.linalg.lstsq`), the plotting code and the example scripts: they call into numpy's solver or only draw.
- Floating point: all arithmetic is exact. `np.linalg.norm`, √5 and the rounding of `1e-6·norm` are not modelled. The norm and 1/φ are parameters characterised by `IsNorm` and `IsInvPhi`.
- `__call__` returns `‖Ax - b‖₂²`. The model computes the sum of squares `NormSq` directly, without the square root and re-squaring.
- `LineSearch.Gs`: Python's recursion limit is the `fuel` parameter. Running out of it is `RecursionLimit` (RecursionError). The actual depth limit is not modelled.
- `LineSearch.Backtracking`: the source's loop has no bound. The model stops after `fuel` tests with `FuelExhausted`, a case the source does not have. The search is modelled on scalars: `jac(x)*dx` is a product of numbers, not of arrays.
- `goldensection` has no `norm` or `iphi` arguments. The model takes them as parameters standing for `np.linalg.norm` and `(√5 - 1)/2`.
- `t` of `goldensection` is `None` wherever numpy would produce an infinite or nan average (a zero entry in dx, or an empty x). The value of that non-finite number is not modelled.
- `_create_jac` on a one-dimensional x, where `x.shape[1]` raises IndexError: the model takes a two-dimensional `Matrix`.
- `GradientDescent.SteepestDescent`, `GradientDescent.NoIterations`: x0 is a column by type (a `Vec` wrapped by `ColumnMatrix`), so the driver's own raise through `_jac(_x)` (src/gradient_descent.py:82) when `jac` is None and x0 is not a column (ValueError for a row, IndexError for a one-dimensional array) is not modelled; `NumericalJacobian` alone states that error.
- `least_squares` with an A of more than two dimensions (`ToMatrix` requires at most two). Inputs numpy cannot convert to floats are also not modelled.
- `LeastSquares.NewLeastSquares`: b is taken by its entries only, so an ndarray b is assumed to hold as many entries as its shape says.
- `GradientDescent.Valid`: a supplied `jac` is assumed to return an array of x's shape, and `norm` to be a norm. With other inputs numpy would raise or broadcast.
- Errors raised inside user-supplied objectives, Jacobians and Hessians are not modelled; these callables are total functions.
- `__repr__` of both records: only the solution-path status line is modelled (`PathStatus`, `PathStatusLine`). The rest is string formatting.
- `LineSearchResult` is the plain record `Results.LineSearchResult`; its constructor only stores its three arguments.

## Findings

| source | as written | input that shows it | evidently intended | confidence | as-written member | corrected member |
|---|---|---|---|---|---|---|
| src/gradient_descent.py:97 | `_njev += lsres["njev"]`, but the dictionary returned by `goldensection` has only the keys 'x', 't' and 'nfev' | any call with `maxiter ≥ 1`, `ls="golden-section"`, and a first line search that succeeds (e.g. a convex quadratic from a non-stationary x0): KeyError('njev') | read the count with `lsres.get("njev", 0)`, as a line search that does not evaluate the Jacobian reports none | not executed | GradientDescent.SteepestDescent | GradientDescent.SteepestDescentIntended |
| src/line_search.py:95-99 | the ValueError for beta outside (0, 1) is built but never raised | `beta=2`, x = 0, dx = 1, an objective rejecting t = 1 and accepting t = 2: the step returned is 2 | `raise ValueError(...)` as for alpha, so that every step lies in (0, 1] | not executed | LineSearch.OutOfRangeBetaAccepted | LineSearch.BacktrackingIntended |

=== FILE: arrays.dfy ===
/** Column vectors, matrices and the numpy operations the toolkit applies to
    them, over exact reals. */
module Arrays {

  /** A column vector (an n x 1 numpy array), as its entries from top to bottom. */
  type Vec = seq<real>

  function Add(a: Vec, b: Vec): (r: Vec)
    requires |a| == |b|
    ensures |r| == |a|
  {
    seq(|a|, i requires 0 <= i < |a| => a[i] + b[i])
  }

  function Sub(a: Vec, b: Vec): (r: Vec)
    requires |a| == |b|
    ensures |r| == |a|
  {
    seq(|a|, i requires 0 <= i < |a| => a[i] - b[i])
  }

  function Scale(c: real, v: Vec): (r: Vec)
    ensures |r| == |v|
  {
    seq(|v|, i requires 0 <= i < |v| => c * v[i])
  }

  function Neg(v: Vec): (r: Vec)
    ensures |r| == |v|
  {
    seq(|v|, i requires 0 <= i < |v| => -v[i])
  }

  /** `(a + b) / 2` */
  function Midpoint(a: Vec, b: Vec): (r: Vec)
    requires |a| == |b|
    ensures |r| == |a|
  {
    seq(|a|, i requires 0 <= i < |a| => (a[i] + b[i]) / 2.0)
  }

  /** The point `x + s*dx` on the ray from x along dx. */
  function Ray(x: Vec, dx: Vec, s: real): (r: Vec)
    requires |x| == |dx|
    ensures |r| == |x|
  {
    Add(x, Scale(s, dx))
  }

  predicate IsZero(v: Vec) {
    forall i :: 0 <= i < |v| ==> v[i] == 0.0
  }

  predicate NoZeroEntry(v: Vec) {
    forall i :: 0 <= i < |v| ==> v[i] != 0.0
  }

  function Sum(v: seq<real>): real {
    if |v| == 0 then 0.0 else v[0] + Sum(v[1..])
  }

  /** The squared Euclidean norm, the sum of the squared entries. */
  function NormSq(v: Vec): (r: real)
    ensures r >= 0.0
  {
    if |v| == 0 then 0.0 else v[0] * v[0] + NormSq(v[1..])
  }

  /** `norm` stands for `np.linalg.norm`: it is never negative and it is
      zero exactly on the zero vector. */
  ghost predicate IsNorm(norm: Vec -> real) {
    forall v :: norm(v) >= 0.0 && (norm(v) == 0.0 <==> IsZero(v))
  }

  lemma {:induction false} NormSqScale(c: real, v: Vec)
    ensures NormSq(Scale(c, v)) == c * c * NormSq(v)
  {
    if |v| > 0 {
      NormSqScale(c, v[1..]);
      assert Scale(c, v)[1..] == Scale(c, v[1..]) by {
        forall i | 0 <= i < |v| - 1 ensures Scale(c, v)[1..][i] == Scale(c, v[1..])[i] {
        }
      }
      var x, y := v[0], NormSq(v[1..]);
      calc {
        NormSq(Scale(c, v));
        (c * x) * (c * x) + NormSq(Scale(c, v[1..]));
        (c * x) * (c * x) + c * c * y;
        c * c * (x * x + y);
        { assert NormSq(v) == x * x + y; }
        c * c * NormSq(v);
      }
    }
  }

  function Pow(b: real, k: nat): real {
    if k == 0 then 1.0 else b * Pow(b, k - 1)
  }

  function Pow2(k: nat): (r: real)
    ensures r >= 1.0
  {
    if k == 0 then 1.0 else 2.0 * Pow2(k - 1)
  }

  /** A two-dimensional numpy array, as its rows; `ncols` is `shape[1]`. */
  datatype Matrix = Matrix(rows: seq<seq<real>>, ncols: nat)

  predicate WellFormed(m: Matrix) {
    forall i :: 0 <= i < |m.rows| ==> |m.rows[i]| == m.ncols
  }

  /** The n x 1 array holding v. */
  function ColumnMatrix(v: Vec): (m: Matrix)
    ensures WellFormed(m) && m.ncols == 1 && |m.rows| == |v|
  {
    Matrix(seq(|v|, i requires 0 <= i < |v| => [v[i]]), 1)
  }

  /** The entries of an array with one column, top to bottom. */
  function ColumnData(m: Matrix): (v: Vec)
    requires WellFormed(m) && m.ncols == 1
    ensures |v| == |m.rows|
  {
    seq(|m.rows|, i requires 0 <= i < |m.rows| => m.rows[i][0])
  }

  lemma ColumnRoundTrip(v: Vec)
    ensures ColumnData(ColumnMatrix(v)) == v
  {
  }

  function Dot(u: Vec, v: Vec): real
    requires |u| == |v|
  {
    if |u| == 0 then 0.0 else u[0] * v[0] + Dot(u[1..], v[1..])
  }

  /** `A @ x` */
  function MatVec(a: Matrix, x: Vec): (r: Vec)
    requires WellFormed(a) && |x| == a.ncols
    ensures |r| == |a.rows|
  {
    seq(|a.rows|, i requires 0 <= i < |a.rows| => Dot(a.rows[i], x))
  }

  /** A Python value passed where an array is expected: a list, `range(stop)`
      or a numpy array of any shape, stored flat in row-major order. */
  datatype ArrayLike =
    | PyList(items: seq<real>)
    | PyRange(stop: nat)
    | NdArray(shape: seq<nat>, flat: seq<real>)

  /** The entries of `range(n)`. */
  function RangeEntries(n: nat): (r: seq<real>)
    ensures |r| == n
  {
    seq(n, i requires 0 <= i < n => i as real)
  }

  /** `np.array(v)`: the entries of a list or range, or the array itself. */
  function Entries(v: ArrayLike): seq<real> {
    match v
    case PyList(items) => items
    case PyRange(stop) => RangeEntries(stop)
    case NdArray(_, flat) => flat
  }
}

=== FILE: errors.dfy ===
/** Exceptions raised by the optimisation toolkit, and the Option/Result
    wrappers that carry them out of functions and methods. */
module Errors {

  datatype Option<+T> = None | Some(value: T)

  /** One constructor per `raise` site of the source (plus the recursion limit
      and the fuel bound that stand for non-termination). */
  datatype Error =
    | BracketingFailed              // RuntimeError: "Bracketing minimum failed. ..."
    | RecursionLimit                // RecursionError: the `_gs` recursion ran too deep
    | AlphaOutOfBounds              // ValueError: "Bounds on alpha not respected! ..."
    | BetaOutOfBounds               // ValueError: "Bounds on beta not respected! ..." (built, never raised)
    | FuelExhausted                 // the backtracking loop did not stop within the fuel bound
    | NotColumnVector               // ValueError: "x must be a column vector, got ..."
    | BacktrackingNotPermitted      // NotImplementedError: "Usage of backtracking search not permitted ..."
    | NoSuchSearchMethod(ls: string)          // ValueError: No such search method: "<ls>".
    | NoSuchStoppingCriterion(stop: string)   // ValueError: No such stopping criterion: "<stop>".
    | MissingKey(key: string)       // KeyError raised by `d[key]` on a dict without that key
    | NoneNotCallable               // TypeError: 'NoneType' object is not callable
    | BadShapes                     // ValueError: "A and b have bad shapes ..."
    | ShapeMismatch                 // ValueError: "Shape mismatch, A: ..., x: ..."

  datatype Result<+T> = Ok(value: T) | Err(error: Error)
}

=== FILE: gradient_descent.dfy ===
/** Central-difference Jacobian and the steepest-descent driver
    (src/gradient_descent.py). */
module GradientDescent {
  import opened Errors
  import opened Arrays
  import opened Results
  import opened LineSearch

  // ---------------------------------------------------------------------
  // `_create_jac`: central differences with a norm-scaled step
  // ---------------------------------------------------------------------

  /** `delta`: 1e-6 at the origin (to avoid dividing by zero), otherwise
      1e-6 times the norm of x. */
  function StepSize(norm: Vec -> real, x: Vec): (delta: real)
    ensures norm(x) >= 0.0 ==> delta > 0.0
  {
    if norm(x) == 0.0 then 0.000001 else 0.000001 * norm(x)
  }

  /** The step is the fixed 1e-6 exactly at the zero vector, and it is always
      positive. */
  lemma StepSizeCases(norm: Vec -> real, x: Vec)
    requires IsNorm(norm)
    ensures StepSize(norm, x) > 0.0
    ensures StepSize(norm, x) == 0.000001 <==> IsZero(x) || norm(x) == 1.0
  {
    assert norm(x) >= 0.0 && (norm(x) == 0.0 <==> IsZero(x));
    if norm(x) != 0.0 && StepSize(norm, x) == 0.000001 {
      assert 0.000001 * norm(x) == 0.000001 * 1.0;
    }
  }

  /** `dxi`: the vector with `delta` at index i and zeros elsewhere. */
  function Basis(n: nat, i: nat, delta: real): (e: Vec)
    ensures |e| == n
  {
    seq(n, j requires 0 <= j < n => if j == i then delta else 0.0)
  }

  /** `x + dxi` and `x - dxi` move coordinate i by delta and leave every other
      coordinate as it is. */
  lemma PerturbOneCoordinate(x: Vec, i: nat, delta: real)
    requires i < |x|
    ensures Add(x, Basis(|x|, i, delta))[i] == x[i] + delta
    ensures Sub(x, Basis(|x|, i, delta))[i] == x[i] - delta
    ensures forall j :: 0 <= j < |x| && j != i ==>
      Add(x, Basis(|x|, i, delta))[j] == x[j] && Sub(x, Basis(|x|, i, delta))[j] == x[j]
  {
  }

  /** Entry i of the estimate: (f(x + dxi) - f(x - dxi)) / (2 delta). */
  function CentralEntry(func: Vec -> real, x: Vec, i: nat, delta: real): real
    requires delta != 0.0
  {
    (func(Add(x, Basis(|x|, i, delta))) - func(Sub(x, Basis(|x|, i, delta)))) / (2.0 * delta)
  }

  /** The whole estimate, with the step chosen from the norm of x. */
  function CentralDifference(func: Vec -> real, norm: Vec -> real, x: Vec): (g: Vec)
    requires IsNorm(norm)
    ensures |g| == |x|
  {
    StepSizeCases(norm, x);
    seq(|x|, i requires 0 <= i < |x| => CentralEntry(func, x, i, StepSize(norm, x)))
  }

  /** `_jac(x)` of `_create_jac(func)`: reject anything but one column, then
      fill `jacx` entry by entry. `queries` records the pair of points func is
      called at for each entry, two calls per entry. */
  method NumericalJacobian(func: Vec -> real, norm: Vec -> real, x: Matrix)
    returns (r: Result<Matrix>, ghost queries: seq<(Vec, Vec)>)
    requires IsNorm(norm)
    requires WellFormed(x)
    ensures r.Err? <==> x.ncols != 1
    ensures r.Err? ==> r.error == NotColumnVector
    ensures r.Ok? ==> r.value == ColumnMatrix(CentralDifference(func, norm, ColumnData(x)))
    ensures r.Ok? ==>
      var v := ColumnData(x);
      && |queries| == |v|
      && forall i :: 0 <= i < |queries| ==>
           queries[i] == (Add(v, Basis(|v|, i, StepSize(norm, v))), Sub(v, Basis(|v|, i, StepSize(norm, v))))
  {
    queries := [];
    if x.ncols != 1 {
      return Err(NotColumnVector), queries;
    }
    var v := ColumnData(x);
    var delta := StepSize(norm, v);
    StepSizeCases(norm, v);
    var g;
    g, queries := CentralDifferenceLoop(func, v, delta);
    assert g == CentralDifference(func, norm, v);
    r := Ok(ColumnMatrix(g));
  }

  /** The loop of `_jac`: `jacx` starts as zeros and entry i is set from the
      pair of calls at x ± dxi. */
  method CentralDifferenceLoop(func: Vec -> real, v: Vec, delta: real)
    returns (g: Vec, ghost queries: seq<(Vec, Vec)>)
    requires delta != 0.0
    ensures |g| == |v| && forall j :: 0 <= j < |v| ==> g[j] == CentralEntry(func, v, j, delta)
    ensures |queries| == |v|
    ensures forall j :: 0 <= j < |v| ==> queries[j] == (Add(v, Basis(|v|, j, delta)), Sub(v, Basis(|v|, j, delta)))
  {
    queries := [];
    var jacx := new real[|v|](_ => 0.0);
    var i := 0;
    while i < |v|
      invariant 0 <= i <= |v|
      invariant |queries| == i
      invariant forall j :: 0 <= j < i ==> jacx[j] == CentralEntry(func, v, j, delta)
      invariant forall j :: 0 <= j < i ==>
        queries[j] == (Add(v, Basis(|v|, j, delta)), Sub(v, Basis(|v|, j, delta)))
    {
      var dxi := Basis(|v|, i, delta);
      var up := func(Add(v, dxi));
      var down := func(Sub(v, dxi));
      jacx[i] := (up - down) / (2.0 * delta);
      queries := queries + [(Add(v, dxi), Sub(v, dxi))];
      i := i + 1;
    }
    g := jacx[..];
  }

  /** `Dot(c, ·)`, the linear objective with gradient c (any other length
      maps to 0). */
  function Linear(c: Vec): Vec -> real {
    v => if |v| == |c| then Dot(c, v) else 0.0
  }

  lemma {:induction false} DotAdd(c: Vec, x: Vec, e: Vec)
    requires |c| == |x| == |e|
    ensures Dot(c, Add(x, e)) == Dot(c, x) + Dot(c, e)
    ensures Dot(c, Sub(x, e)) == Dot(c, x) - Dot(c, e)
  {
    if |c| > 0 {
      DotAdd(c[1..], x[1..], e[1..]);
      assert Add(x, e)[1..] == Add(x[1..], e[1..]);
      assert Sub(x, e)[1..] == Sub(x[1..], e[1..]);
      assert c[0] * (x[0] + e[0]) == c[0] * x[0] + c[0] * e[0];
      assert c[0] * (x[0] - e[0]) == c[0] * x[0] - c[0] * e[0];
    }
  }

  lemma {:induction false} DotBasis(c: Vec, i: nat, delta: real)
    requires i < |c|
    ensures Dot(c, Basis(|c|, i, delta)) == c[i] * delta
  {
    if i == 0 {
      DotZero(c[1..], Basis(|c|, i, delta)[1..]);
    } else {
      DotBasis(c[1..], i - 1, delta);
      assert Basis(|c|, i, delta)[1..] == Basis(|c| - 1, i - 1, delta);
    }
  }

  lemma {:induction false} DotZero(c: Vec, z: Vec)
    requires |c| == |z| && IsZero(z)
    ensures Dot(c, z) == 0.0
  {
    if |c| > 0 {
      DotZero(c[1..], z[1..]);
    }
  }

  /** Central differences are exact on a linear objective: the estimate of
      the gradient of `Dot(c, ·)` is c itself, whatever the step. */
  lemma CentralDifferenceLinear(c: Vec, norm: Vec -> real, x: Vec)
    requires |c| == |x|
    requires IsNorm(norm)
    ensures CentralDifference(Linear(c), norm, x) == c
  {
    var delta := StepSize(norm, x);
    StepSizeCases(norm, x);
    var g := CentralDifference(Linear(c), norm, x);
    forall i | 0 <= i < |x| ensures g[i] == c[i] {
      CentralEntryLinear(c, x, i, delta);
    }
  }

  lemma CentralEntryLinear(c: Vec, x: Vec, i: nat, delta: real)
    requires |c| == |x| && i < |x|
    requires delta > 0.0
    ensures CentralEntry(Linear(c), x, i, delta) == c[i]
  {
    var e := Basis(|x|, i, delta);
    DotAdd(c, x, e);
    DotBasis(c, i, delta);
    var d := Dot(c, x);
    var q := c[i] * delta;
    assert Linear(c)(Add(x, e)) == d + q;
    assert Linear(c)(Sub(x, e)) == d - q;
    Cancel(c[i], delta);
  }

  lemma Cancel(a: real, delta: real)
    requires delta > 0.0
    ensures (a * delta - (0.0 - a * delta)) / (2.0 * delta) == a
  {
    assert a * delta - (0.0 - a * delta) == a * (2.0 * delta);
  }

  // ---------------------------------------------------------------------
  // `_jac` of `steepest_descent`: the supplied Jacobian or the estimate
  // ---------------------------------------------------------------------

  /** The gradient the driver uses: `jac(x)`, or the central-difference
      estimate on the raw, uncounted objective when `jac` is None. */
  function Gradient(func: Vec -> real, jac: Option<Vec -> Vec>, norm: Vec -> real, x: Vec): Vec
    requires IsNorm(norm)
  {
    if jac.Some? then jac.value(x) else CentralDifference(func, norm, x)
  }

  /** A supplied Jacobian returns an array of x's shape. */
  ghost predicate GradientShaped(jac: Option<Vec -> Vec>) {
    jac.Some? ==> forall v :: |jac.value(v)| == |v|
  }

  method EvaluateGradient(func: Vec -> real, jac: Option<Vec -> Vec>, norm: Vec -> real, x: Vec)
    returns (g: Vec)
    requires IsNorm(norm)
    ensures g == Gradient(func, jac, norm, x)
  {
    if jac.Some? {
      g := jac.value(x);
    } else {
      var m, queries := NumericalJacobian(func, norm, ColumnMatrix(x));
      ColumnRoundTrip(x);
      g := ColumnData(m.value);
      ColumnRoundTrip(g);
    }
  }

  // ---------------------------------------------------------------------
  // `steepest_descent`
  // ---------------------------------------------------------------------

  /** How the driver reads a count from the line-search dictionary:
      `d[key]`, which raises KeyError for a missing key, or
      `d.get(key, 0)`. */
  datatype KeyAccess = Subscript | GetOrZero

  /** `lsres[key]` on the dictionary `goldensection` returns, whose keys are
      'x', 't' and 'nfev'. */
  function CountEntry(d: GoldenSectionDict, key: string, access: KeyAccess): (r: Result<nat>)
    ensures r.Err? <==> key != "nfev" && access == Subscript
    ensures r.Err? ==> r.error == MissingKey(key)
    ensures r.Ok? ==> r.value == (if key == "nfev" then d.nfev else 0)
  {
    if key == "nfev" then Ok(d.nfev)
    else match access
      case Subscript => Err(MissingKey(key))
      case GetOrZero => Ok(0)
  }

  /** Everything the loop reads but never changes. */
  datatype Settings = Settings(
    func: Vec -> real,
    jac: Option<Vec -> Vec>,
    norm: Vec -> real,
    iphi: real,
    fuel: nat,
    ls: string,
    stop: string,
    tol: real,
    access: KeyAccess)

  /** `norm` is a norm and a supplied Jacobian keeps x's shape. */
  ghost predicate Valid(s: Settings) {
    IsNorm(s.norm) && GradientShaped(s.jac)
  }

  /** The loop state: `_x`, `_dx` and the two counters. */
  datatype Descent = Descent(x: Vec, g: Vec, nfev: nat, njev: nat)

  const MaxIterInfo: string := "Maximum number of iterations exceeded."

  /** One pass of the loop body, up to the convergence test: search along
      -g, add the counts the line search reports, move, and re-evaluate the
      gradient. */
  function Iteration(s: Settings, d: Descent): (r: Result<Descent>)
    requires Valid(s)
    requires |d.g| == |d.x|
    ensures r.Ok? ==> |r.value.g| == |r.value.x| == |d.x|
  {
    if s.ls == "golden-section" then
      match GoldenSectionSpec(s.func, d.x, Neg(d.g), s.norm, s.iphi, s.fuel, 0.000001)
      case Err(e) => Err(e)
      case Ok(lsres) =>
        match CountEntry(lsres, "njev", s.access)
        case Err(e) => Err(e)
        case Ok(extra) =>
          if s.stop == "jac-norm" then
            Ok(Descent(lsres.x, Gradient(s.func, s.jac, s.norm, lsres.x),
                       d.nfev + lsres.nfev, d.njev + extra + 1))
          else
            Err(NoSuchStoppingCriterion(s.stop))
    else if s.ls == "backtracking" then
      Err(BacktrackingNotPermitted)
    else
      Err(NoSuchSearchMethod(s.ls))
  }

  /** The record returned on `break`: `niter` is the 0-based loop index and
      `jac` is evaluated once more after `njev` was read. */
  function Converged(s: Settings, d: Descent, niter: int): OptimisationResult
    requires Valid(s)
  {
    NewOptimisationResult(true, d.x, niter, d.nfev, d.njev,
                          kwargs := map["jac" := Vector(Gradient(s.func, s.jac, s.norm, d.x))])
  }

  /** The record returned by the `else` of the loop. */
  function Exhausted(s: Settings, d: Descent, maxiter: int): OptimisationResult
    requires Valid(s)
  {
    NewOptimisationResult(false, d.x, maxiter, d.nfev, d.njev,
                          kwargs := map["info" := Text(MaxIterInfo),
                                        "jac" := Vector(Gradient(s.func, s.jac, s.norm, d.x))])
  }

  /** The remaining iterations niter, ..., maxiter - 1 from state d. */
  function DescendFrom(s: Settings, d: Descent, niter: int, maxiter: int): Result<OptimisationResult>
    requires Valid(s)
    requires |d.g| == |d.x|
    decreases maxiter - niter
  {
    if niter >= maxiter then
      Ok(Exhausted(s, d, maxiter))
    else
      match Iteration(s, d)
      case Err(e) => Err(e)
      case Ok(d') =>
        if s.norm(d'.g) < s.tol then Ok(Converged(s, d', niter))
        else DescendFrom(s, d', niter + 1, maxiter)
  }

  /** The state before the loop: the first gradient has been evaluated once. */
  function Start(s: Settings, x0: Vec): (d: Descent)
    requires Valid(s)
    ensures |d.g| == |d.x|
  {
    Descent(x0, Gradient(s.func, s.jac, s.norm, x0), 0, 1)
  }

  /** What `steepest_descent` computes, as a function of its inputs. */
  function DescentSpec(s: Settings, x0: Vec, maxiter: int): Result<OptimisationResult>
    requires Valid(s)
  {
    DescendFrom(s, Start(s, x0), 0, maxiter)
  }

  /** One pass of the loop body: dispatch on `ls`, run the line search, add
      its counts, move, and dispatch on `stop`. */
  method Iterate(s: Settings, d: Descent) returns (r: Result<Descent>)
    requires Valid(s)
    requires |d.g| == |d.x|
    ensures r == Iteration(s, d)
  {
    var searchdir := Neg(d.g);
    var lsres: GoldenSectionDict;
    if s.ls == "golden-section" {
      var found := GoldenSection(s.func, d.x, searchdir, s.norm, s.iphi, s.fuel);
      if found.Err? {
        return Err(found.error);
      }
      lsres := found.value;
    } else if s.ls == "backtracking" {
      return Err(BacktrackingNotPermitted);
    } else {
      return Err(NoSuchSearchMethod(s.ls));
    }
    var nfev := d.nfev + lsres.nfev;
    var extra := CountEntry(lsres, "njev", s.access);
    if extra.Err? {
      return Err(extra.error);
    }
    var njev := d.njev + extra.value;
    var x := lsres.x;
    if s.stop == "jac-norm" {
      var g := EvaluateGradient(s.func, s.jac, s.norm, x);
      njev := njev + 1;
      r := Ok(Descent(x, g, nfev, njev));
    } else {
      r := Err(NoSuchStoppingCriterion(s.stop));
    }
  }

  /** The loop of `steepest_descent`, for either way of reading 'njev'. */
  method Descend(s: Settings, x0: Vec, maxiter: int) returns (r: Result<OptimisationResult>)
    requires Valid(s)
    ensures r == DescentSpec(s, x0, maxiter)
  {
    var g := EvaluateGradient(s.func, s.jac, s.norm, x0);
    var d := Descent(x0, g, 0, 1);
    var niter := 0;
    var converged := false;
    while niter < maxiter
      invariant 0 <= niter
      invariant |d.g| == |d.x|
      invariant DescendFrom(s, d, niter, maxiter) == DescentSpec(s, x0, maxiter)
      decreases maxiter - niter
    {
      var next := Iterate(s, d);
      if next.Err? {
        return Err(next.error);
      }
      d := next.value;
      if s.norm(d.g) < s.tol {
        converged := true;
        break;
      }
      niter := niter + 1;
    }
    var final := EvaluateGradient(s.func, s.jac, s.norm, d.x);
    if converged {
      r := Ok(NewOptimisationResult(true, d.x, niter, d.nfev, d.njev, kwargs := map["jac" := Vector(final)]));
    } else {
      r := Ok(NewOptimisationResult(false, d.x, maxiter, d.nfev, d.njev,
                                    kwargs := map["info" := Text(MaxIterInfo), "jac" := Vector(final)]));
    }
  }

  /** `steepest_descent(func, x0, ls="golden-section", jac=None,
      stop="jac-norm", tol=1e-6, maxiter=1024)` as written: the count is read
      with `lsres["njev"]`. */
  method SteepestDescent(func: Vec -> real, x0: Vec, norm: Vec -> real, iphi: real, fuel: nat,
                         ls: string := "golden-section", jac: Option<Vec -> Vec> := None,
                         stop: string := "jac-norm", tol: real := 0.000001, maxiter: int := 1024)
    returns (r: Result<OptimisationResult>)
    requires IsNorm(norm) && GradientShaped(jac)
    ensures r == DescentSpec(Settings(func, jac, norm, iphi, fuel, ls, stop, tol, Subscript), x0, maxiter)
    ensures maxiter >= 1 ==> r.Err?
  {
    var s := Settings(func, jac, norm, iphi, fuel, ls, stop, tol, Subscript);
    r := Descend(s, x0, maxiter);
    if maxiter >= 1 {
      AsWrittenNeverReturns(s, x0, maxiter);
    }
  }

  /** The same driver reading the count with `lsres.get("njev", 0)`. */
  method SteepestDescentIntended(func: Vec -> real, x0: Vec, norm: Vec -> real, iphi: real, fuel: nat,
                                 ls: string := "golden-section", jac: Option<Vec -> Vec> := None,
                                 stop: string := "jac-norm", tol: real := 0.000001, maxiter: int := 1024)
    returns (r: Result<OptimisationResult>)
    requires IsNorm(norm) && GradientShaped(jac)
    ensures r == DescentSpec(Settings(func, jac, norm, iphi, fuel, ls, stop, tol, GetOrZero), x0, maxiter)
  {
    r := Descend(Settings(func, jac, norm, iphi, fuel, ls, stop, tol, GetOrZero), x0, maxiter);
  }

  // ---------------------------------------------------------------------
  // Properties of the driver
  // ---------------------------------------------------------------------

  /** As written, every run with at least one iteration raises: the line
      search's own error, the dispatch error for `ls`, or KeyError for the
      'njev' key `goldensection` never returns. */
  lemma AsWrittenNeverReturns(s: Settings, x0: Vec, maxiter: int)
    requires Valid(s)
    requires s.access == Subscript
    requires maxiter >= 1
    ensures var r := DescentSpec(s, x0, maxiter);
            var d := Start(s, x0);
      && r.Err?
      && (s.ls == "golden-section" ==>
            match GoldenSectionSpec(s.func, d.x, Neg(d.g), s.norm, s.iphi, s.fuel, 0.000001)
            case Err(e) => r.error == e
            case Ok(_) => r.error == MissingKey("njev"))
  {
  }

  /** With no iterations allowed no dispatch error is raised: the result
      reports failure at x0, with the one initial Jacobian call counted. */
  lemma NoIterations(s: Settings, x0: Vec, maxiter: int)
    requires Valid(s)
    requires maxiter <= 0
    ensures var r := DescentSpec(s, x0, maxiter);
      && r.Ok?
      && !r.value.success
      && r.value.x == x0
      && r.value.niter == maxiter
      && r.value.nfev == 0
      && r.value.njev == 1
      && r.value.info == Text(MaxIterInfo)
      && r.value.jac == Vector(Gradient(s.func, s.jac, s.norm, x0))
  {
  }

  /** `ls` is checked inside the loop: "backtracking" raises
      NotImplementedError and any other string but "golden-section" raises
      ValueError, as soon as one iteration runs. */
  lemma SearchMethodDispatch(s: Settings, x0: Vec, maxiter: int)
    requires Valid(s)
    requires maxiter >= 1
    requires s.ls != "golden-section"
    ensures DescentSpec(s, x0, maxiter) ==
      if s.ls == "backtracking" then Err(BacktrackingNotPermitted) else Err(NoSuchSearchMethod(s.ls))
  {
  }

  /** In the corrected driver (`get("njev", 0)`), an unknown `stop` is only
      noticed after the first line search has run: the result is that
      search's error if it fails, and the stopping-rule ValueError otherwise.
      As written, a successful search raises KeyError('njev') first. */
  lemma StopCheckedAfterSearch(s: Settings, x0: Vec, maxiter: int)
    requires Valid(s)
    requires s.access == GetOrZero && s.ls == "golden-section" && s.stop != "jac-norm"
    requires maxiter >= 1
    ensures var d := Start(s, x0);
      DescentSpec(s, x0, maxiter) ==
        match GoldenSectionSpec(s.func, d.x, Neg(d.g), s.norm, s.iphi, s.fuel, 0.000001)
        case Err(e) => Err(e)
        case Ok(_) => Err(NoSuchStoppingCriterion(s.stop))
  {
  }

  /** One iteration of the corrected driver (`get("njev", 0)`) either fails
      with a line-search or dispatch error, or has run the golden-section
      search and the "jac-norm" rule, moved to the search's point, added
      exactly the search's nfev (the gradient's own calls to func, the 2n of
      the central difference included, are never counted) and counted
      exactly one Jacobian call. */
  lemma IterationOutcome(s: Settings, d: Descent)
    requires Valid(s)
    requires |d.g| == |d.x|
    requires s.access == GetOrZero
    ensures var r := Iteration(s, d);
      && (r.Ok? ==> s.ls == "golden-section" && s.stop == "jac-norm" && r.value.njev == d.njev + 1)
      && (r.Ok? ==> r.value.g == Gradient(s.func, s.jac, s.norm, r.value.x))
      && (r.Ok? ==>
            var ls := GoldenSectionSpec(s.func, d.x, Neg(d.g), s.norm, s.iphi, s.fuel, 0.000001);
            ls.Ok? && r.value.nfev == d.nfev + ls.value.nfev && r.value.x == ls.value.x)
      && (r.Err? ==>
            r.error in {BracketingFailed, RecursionLimit, BacktrackingNotPermitted,
                        NoSuchSearchMethod(s.ls), NoSuchStoppingCriterion(s.stop)})
  {
    if s.ls == "golden-section" {
      GoldenSectionErrors(s.func, d.x, Neg(d.g), s.norm, s.iphi, s.fuel, 0.000001);
    }
  }

  /** The two exits of the corrected driver (`get("njev", 0)`), from any
      state reached after `niter` iterations: success at a loop index below
      `maxiter` with the gradient norm under `tol`, and with one counted
      Jacobian call per iteration plus the initial one; or failure with
      `niter == maxiter`, the information text and the same count. On both
      exits `jac` is the gradient re-evaluated at the returned x. The only
      errors are those of the line search and of the two dispatches. */
  lemma {:induction false} DescendFromOutcome(s: Settings, d: Descent, niter: int, maxiter: int)
    requires Valid(s)
    requires |d.g| == |d.x|
    requires s.access == GetOrZero
    requires 0 <= niter
    requires niter <= maxiter ==> d.njev == niter + 1
    ensures var r := DescendFrom(s, d, niter, maxiter);
      && (r.Ok? && r.value.success ==>
            && niter <= r.value.niter < maxiter
            && s.ls == "golden-section" && s.stop == "jac-norm"
            && r.value.jac.Vector?
            && s.norm(r.value.jac.v) < s.tol
            && r.value.njev == r.value.niter + 2
            && r.value.info == NoneValue)
      && (r.Ok? && !r.value.success ==>
            && r.value.niter == maxiter
            && r.value.info == Text(MaxIterInfo)
            && (niter <= maxiter ==> r.value.njev == maxiter + 1))
      && (r.Ok? ==> r.value.jac == Vector(Gradient(s.func, s.jac, s.norm, r.value.x)))
      && (r.Err? ==>
            r.error in {BracketingFailed, RecursionLimit, BacktrackingNotPermitted,
                        NoSuchSearchMethod(s.ls), NoSuchStoppingCriterion(s.stop)})
    decreases maxiter - niter
  {
    if niter >= maxiter {
      ExhaustedFields(s, d, maxiter);
    } else {
      IterationOutcome(s, d);
      var it := Iteration(s, d);
      if it.Ok? {
        var d' := it.value;
        if s.norm(d'.g) < s.tol {
          assert DescendFrom(s, d, niter, maxiter) == Ok(Converged(s, d', niter));
          ConvergedFields(s, d', niter);
        } else {
          assert DescendFrom(s, d, niter, maxiter) == DescendFrom(s, d', niter + 1, maxiter);
          DescendFromOutcome(s, d', niter + 1, maxiter);
        }
      }
    }
  }

  /** The fields of the record returned on `break`. */
  lemma ConvergedFields(s: Settings, d: Descent, niter: int)
    requires Valid(s)
    ensures var r := Converged(s, d, niter);
      && r.success && r.x == d.x && r.niter == niter && r.njev == d.njev && r.info == NoneValue
      && r.nfev == d.nfev && r.nhev == 0
      && r.jac == Vector(Gradient(s.func, s.jac, s.norm, d.x))
  {
  }

  /** The fields of the record returned by the `else` of the loop. */
  lemma ExhaustedFields(s: Settings, d: Descent, maxiter: int)
    requires Valid(s)
    ensures var r := Exhausted(s, d, maxiter);
      && !r.success && r.x == d.x && r.niter == maxiter && r.njev == d.njev && r.info == Text(MaxIterInfo)
      && r.nfev == d.nfev && r.nhev == 0
      && r.jac == Vector(Gradient(s.func, s.jac, s.norm, d.x))
  {
  }

  /** The outcome of the intended driver from its start. */
  lemma IntendedOutcome(s: Settings, x0: Vec, maxiter: int)
    requires Valid(s)
    requires s.access == GetOrZero
    ensures var r := DescentSpec(s, x0, maxiter);
      && (r.Ok? && r.value.success ==>
            && 0 <= r.value.niter < maxiter
            && r.value.jac.Vector?
            && s.norm(r.value.jac.v) < s.tol
            && r.value.njev == r.value.niter + 2)
      && (r.Ok? && !r.value.success ==>
            && r.value.niter == maxiter
            && r.value.info == Text(MaxIterInfo)
            && r.value.njev == (if maxiter >= 0 then maxiter + 1 else 1))
      && (r.Ok? ==> r.value.jac == Vector(Gradient(s.func, s.jac, s.norm, r.value.x)))
      && (r.Err? ==>
            r.error in {BracketingFailed, RecursionLimit, BacktrackingNotPermitted,
                        NoSuchSearchMethod(s.ls), NoSuchStoppingCriterion(s.stop)})
  {
    DescendFromOutcome(s, Start(s, x0), 0, maxiter);
  }
}

=== FILE: least_squares.dfy ===
/** The least-squares objective ||Ax - b||² (src/least_squares.py). */
module LeastSquares {
  import opened Errors
  import opened Arrays

  function Product(shape: seq<nat>): nat {
    if |shape| == 0 then 1 else shape[0] * Product(shape[1..])
  }

  lemma ProductOfTwo(shape: seq<nat>)
    requires |shape| == 2
    ensures Product(shape) == shape[0] * shape[1]
  {
    assert shape[1..][1..] == [];
    assert Product(shape[1..]) == shape[1] * Product(shape[1..][1..]);
  }

  /** A numpy array holds exactly as many entries as its shape says. */
  predicate ValidArray(v: ArrayLike) {
    v.NdArray? ==> Product(v.shape) == |v.flat|
  }

  /** The rows one after another: numpy's row-major (C-order) flattening. */
  function Concat(rows: seq<seq<real>>): seq<real> {
    if |rows| == 0 then [] else rows[0] + Concat(rows[1..])
  }

  /** The rows of an r x c array stored flat in row-major order: r rows of c
      entries each, which read one after another give back the flat
      entries. */
  function Rows(flat: seq<real>, r: nat, c: nat): (rows: seq<seq<real>>)
    requires |flat| == r * c
    ensures |rows| == r
    ensures forall i :: 0 <= i < r ==> |rows[i]| == c
    ensures Concat(rows) == flat
    decreases r
  {
    if r == 0 then []
    else
      assert |flat[c..]| == (r - 1) * c;
      var rest := Rows(flat[c..], r - 1, c);
      var rows := [flat[..c]] + rest;
      assert rows[1..] == rest;
      assert flat[..c] + flat[c..] == flat;
      rows
  }

  /** `np.array(A, ndmin=2)`: a two-dimensional array is kept, and a list, a
      range, a scalar or a one-dimensional array becomes a single row. */
  function ToMatrix(a: ArrayLike): (m: Matrix)
    requires ValidArray(a)
    requires a.NdArray? ==> |a.shape| <= 2
    ensures WellFormed(m)
    ensures a.NdArray? && |a.shape| == 2 ==>
      && |m.rows| == a.shape[0] && m.ncols == a.shape[1]
      && Concat(m.rows) == a.flat
    ensures !(a.NdArray? && |a.shape| == 2) ==>
      |m.rows| == 1 && m.ncols == |Entries(a)| && m.rows[0] == Entries(a)
  {
    if a.NdArray? && |a.shape| == 2 then
      ProductOfTwo(a.shape);
      Matrix(Rows(a.flat, a.shape[0], a.shape[1]), a.shape[1])
    else
      Matrix([Entries(a)], |Entries(a)|)
  }

  /** A problem instance: A and b as a column. */
  datatype LeastSquaresProblem = LeastSquaresProblem(a: Matrix, b: Vec)

  /** What the constructor guarantees: A is rectangular with as many rows as
      b has entries. */
  predicate Valid(p: LeastSquaresProblem) {
    WellFormed(p.a) && |p.a.rows| == |p.b|
  }

  /** `least_squares(A, b)`: promote A to two dimensions, reshape b into a
      column, and raise ValueError when their row counts differ. */
  function NewLeastSquares(a: ArrayLike, b: ArrayLike): (r: Result<LeastSquaresProblem>)
    requires ValidArray(a)
    requires a.NdArray? ==> |a.shape| <= 2
    ensures r.Err? <==> |ToMatrix(a).rows| != |Entries(b)|
    ensures r.Err? ==> r.error == BadShapes
    ensures r.Ok? ==> Valid(r.value) && r.value.a == ToMatrix(a) && r.value.b == Entries(b)
  {
    var m := ToMatrix(a);
    var col := Entries(b);
    if |m.rows| != |col| then Err(BadShapes) else Ok(LeastSquaresProblem(m, col))
  }

  /** The reshape at the top of `__call__`: anything that is not a numpy
      array is converted and reshaped into a column. An array that is not a
      column is reshaped and a column is used as it is; numpy's reshape reads
      in row-major (C) order, so both yield the array's flat entries. */
  function AsColumn(x: ArrayLike): Vec {
    if !x.NdArray? then Entries(x) else x.flat
  }

  /** Every branch of the reshape yields the entries in row-major order. */
  lemma AsColumnEntries(x: ArrayLike)
    ensures AsColumn(x) == Entries(x)
  {
  }

  function Residual(p: LeastSquaresProblem, x: Vec): (r: Vec)
    requires Valid(p) && |x| == p.a.ncols
    ensures |r| == |p.b|
  {
    Sub(MatVec(p.a, x), p.b)
  }

  /** `ls(x)`: ValueError when x has the wrong number of entries, otherwise
      the squared residual norm, which is never negative. */
  function Call(p: LeastSquaresProblem, x: ArrayLike): (r: Result<real>)
    requires Valid(p)
    ensures r.Err? <==> |Entries(x)| != p.a.ncols
    ensures r.Err? ==> r.error == ShapeMismatch
    ensures r.Ok? ==> r.value >= 0.0
  {
    var col := AsColumn(x);
    AsColumnEntries(x);
    if |col| != p.a.ncols then Err(ShapeMismatch)
    else Ok(NormSq(Residual(p, col)))
  }

  /** A list, a range and an array holding the same numbers give the same
      value; in general only the entries of x matter. */
  lemma SameEntriesSameValue(p: LeastSquaresProblem, x: ArrayLike, y: ArrayLike)
    requires Valid(p)
    requires Entries(x) == Entries(y)
    ensures Call(p, x) == Call(p, y)
  {
    AsColumnEntries(x);
    AsColumnEntries(y);
  }

  lemma RangeListArrayAgree(p: LeastSquaresProblem, n: nat)
    requires Valid(p)
    ensures Call(p, PyRange(n)) == Call(p, PyList(RangeEntries(n)))
    ensures Call(p, PyRange(n)) == Call(p, NdArray([n], RangeEntries(n)))
  {
    SameEntriesSameValue(p, PyRange(n), PyList(RangeEntries(n)));
    SameEntriesSameValue(p, PyRange(n), NdArray([n], RangeEntries(n)));
  }

  lemma {:induction false} DotScale(u: Vec, c: real, v: Vec)
    requires |u| == |v|
    ensures Dot(u, Scale(c, v)) == c * Dot(u, v)
  {
    if |u| > 0 {
      var sv := Scale(c, v);
      assert sv[1..] == Scale(c, v[1..]) by {
        forall i | 0 <= i < |v| - 1 ensures sv[1..][i] == Scale(c, v[1..])[i] { }
      }
      DotScale(u[1..], c, v[1..]);
      assert Dot(u, sv) == u[0] * (c * v[0]) + c * Dot(u[1..], v[1..]);
      Factor(u[0], v[0], c, Dot(u[1..], v[1..]));
    }
  }

  lemma Factor(a: real, b: real, c: real, rest: real)
    ensures a * (c * b) + c * rest == c * (a * b + rest)
  {
  }

  lemma MatVecScale(a: Matrix, c: real, x: Vec)
    requires WellFormed(a) && |x| == a.ncols
    ensures MatVec(a, Scale(c, x)) == Scale(c, MatVec(a, x))
  {
    var lhs := MatVec(a, Scale(c, x));
    var rhs := Scale(c, MatVec(a, x));
    forall i | 0 <= i < |a.rows| ensures lhs[i] == rhs[i] {
      DotScale(a.rows[i], c, x);
    }
  }

  /** The residual of the scaled problem at c·x is c times the residual. */
  lemma ResidualScale(p: LeastSquaresProblem, c: real, x: Vec)
    requires Valid(p)
    requires |x| == p.a.ncols
    ensures Valid(LeastSquaresProblem(p.a, Scale(c, p.b)))
    ensures Residual(LeastSquaresProblem(p.a, Scale(c, p.b)), Scale(c, x)) == Scale(c, Residual(p, x))
  {
    MatVecScale(p.a, c, x);
    var u := MatVec(p.a, x);
    forall i | 0 <= i < |u| ensures Sub(Scale(c, u), Scale(c, p.b))[i] == Scale(c, Sub(u, p.b))[i] {
      assert c * u[i] - c * p.b[i] == c * (u[i] - p.b[i]);
    }
  }

  /** A column of the right size is evaluated as the sum of squares of the
      residual. */
  lemma CallColumn(p: LeastSquaresProblem, n: nat, x: Vec)
    requires Valid(p)
    requires |x| == n == p.a.ncols
    ensures Call(p, NdArray([n, 1], x)) == Ok(NormSq(Residual(p, x)))
  {
    AsColumnEntries(NdArray([n, 1], x));
  }

  /** Scaling x and b by the same c scales the value by c²:
      ||A(cx) - cb||² = c²||Ax - b||². */
  lemma ScaledProblem(p: LeastSquaresProblem, c: real, x: Vec)
    requires Valid(p)
    requires |x| == p.a.ncols
    ensures Valid(LeastSquaresProblem(p.a, Scale(c, p.b)))
    ensures var before := Call(p, NdArray([|x|, 1], x));
      var after := Call(LeastSquaresProblem(p.a, Scale(c, p.b)), NdArray([|x|, 1], Scale(c, x)));
      before.Ok? && after.Ok? && after.value == c * c * before.value
  {
    var scaled := LeastSquaresProblem(p.a, Scale(c, p.b));
    var r := Residual(p, x);
    ResidualScale(p, c, x);
    NormSqScale(c, r);
    CallColumn(p, |x|, x);
    CallColumn(scaled, |x|, Scale(c, x));
    var before := Call(p, NdArray([|x|, 1], x));
    var after := Call(scaled, NdArray([|x|, 1], Scale(c, x)));
    SameFactor(c * c, before.value, NormSq(r));
    assert after.value == c * c * before.value;
  }

  lemma SameFactor(k: real, a: real, b: real)
    requires a == b
    ensures k * a == k * b
  {
  }

  lemma {:induction false} NormSqZero(v: Vec)
    requires IsZero(v)
    ensures NormSq(v) == 0.0
  {
    if |v| > 0 {
      NormSqZero(v[1..]);
    }
  }

  lemma {:induction false} DotZeroLeft(z: Vec, x: Vec)
    requires |z| == |x| && IsZero(z)
    ensures Dot(z, x) == 0.0
  {
    if |z| > 0 {
      DotZeroLeft(z[1..], x[1..]);
    }
  }

  /** With A and b all zero the value is 0 for every x of the right size. */
  lemma ZeroProblem(p: LeastSquaresProblem, x: ArrayLike)
    requires Valid(p)
    requires forall i :: 0 <= i < |p.a.rows| ==> IsZero(p.a.rows[i])
    requires IsZero(p.b)
    requires |Entries(x)| == p.a.ncols
    ensures Call(p, x) == Ok(0.0)
  {
    AsColumnEntries(x);
    var col := Entries(x);
    var r := Residual(p, col);
    forall i | 0 <= i < |r| ensures r[i] == 0.0 {
      DotZeroLeft(p.a.rows[i], col);
    }
    NormSqZero(r);
  }

  /** The documented example: A = [[1, 2], [3, 4]], b = [6, 7] and
      x = [1, 1] give Ax - b = [-3, 0], hence 9. */
  lemma DocExample()
    ensures var p := NewLeastSquares(NdArray([2, 2], [1.0, 2.0, 3.0, 4.0]), NdArray([2], [6.0, 7.0]));
      p.Ok? && Call(p.value, PyList([1.0, 1.0])) == Ok(9.0)
  {
    var a := NdArray([2, 2], [1.0, 2.0, 3.0, 4.0]);
    assert Product([2, 2]) == 4;
    var m := ToMatrix(a);
    var flat := [1.0, 2.0, 3.0, 4.0];
    assert flat[..2] == [1.0, 2.0] && flat[2..] == [3.0, 4.0];
    assert [3.0, 4.0][..2] == [3.0, 4.0] && [3.0, 4.0][2..] == [];
    assert Rows([3.0, 4.0], 1, 2) == [[3.0, 4.0]];
    assert m.rows == [[1.0, 2.0], [3.0, 4.0]] && m.ncols == 2;
    var p := LeastSquaresProblem(m, [6.0, 7.0]);
    assert MatVec(m, [1.0, 1.0]) == [3.0, 7.0];
    assert Residual(p, [1.0, 1.0]) == [-3.0, 0.0];
    assert NormSq([-3.0, 0.0]) == 9.0;
  }
}

=== FILE: line_search.dfy ===
/** Golden-section and backtracking line searches (src/line_search.py). */
module LineSearch {
  import opened Errors
  import opened Arrays

  // ---------------------------------------------------------------------
  // The golden ratio
  // ---------------------------------------------------------------------

  /** `iphi` is 1/φ = (√5 - 1)/2: the root in (0, 1) of iphi² = 1 - iphi. */
  predicate IsInvPhi(iphi: real) {
    0.0 < iphi < 1.0 && iphi * iphi == 1.0 - iphi
  }

  /** `iphi2`, which the source computes as (3 - √5)/2 = 1/φ² = 1 - 1/φ. */
  function InvPhi2(iphi: real): real {
    1.0 - iphi
  }

  // ---------------------------------------------------------------------
  // `_gs`: recursive golden-section subdivision with cached values
  // ---------------------------------------------------------------------

  /** What `_gs` closes over besides 1/φ: the objective, `np.linalg.norm` and
      the precision. */
  datatype Setup = Setup(func: Vec -> real, norm: Vec -> real, precision: real)

  /** The point `_gs` returns, with the number of calls to `func` it made. */
  datatype GsOut = GsOut(x: Vec, nfev: nat)

  /** 1 when a function value was not handed down and must be computed. */
  function Missing(v: Option<real>): nat {
    if v.None? then 1 else 0
  }

  /** `h`, or `x4 - x1` when it is not given. */
  function Span(x1: Vec, x4: Vec, h: Option<Vec>): (r: Vec)
    requires |x4| == |x1|
    requires h.Some? ==> |h.value| == |x1|
    ensures |r| == |x1|
  {
    if h.None? then Sub(x4, x1) else h.value
  }

  /** The inner point handed down, or `x1 + c*h` when it is not given. */
  function InnerPoint(x1: Vec, c: real, hh: Vec, given: Option<Vec>): (r: Vec)
    requires |hh| == |x1|
    requires given.Some? ==> |given.value| == |x1|
    ensures |r| == |x1|
  {
    if given.None? then Add(x1, Scale(c, hh)) else given.value
  }

  /** The function value handed down, or a fresh call to `func`. */
  function ValueAt(func: Vec -> real, p: Vec, given: Option<real>): real {
    if given.None? then func(p) else given.value
  }

  /** `_gs(x1, x4, h=None, x2=None, x3=None, fx2=None, fx3=None)`. The optional
      arguments are `Option`s; `fuel` is the number of nested calls Python's
      recursion limit still allows. */
  function Gs(st: Setup, iphi: real, x1: Vec, x4: Vec, h: Option<Vec>, x2: Option<Vec>, x3: Option<Vec>,
              fx2: Option<real>, fx3: Option<real>, fuel: nat): (r: Result<GsOut>)
    requires |x4| == |x1|
    requires h.Some? ==> |h.value| == |x1|
    requires x2.Some? ==> |x2.value| == |x1|
    requires x3.Some? ==> |x3.value| == |x1|
    ensures r.Ok? ==> |r.value.x| == |x1|
    ensures r.Err? ==> r.error == RecursionLimit
    decreases fuel
  {
    var hh := Span(x1, x4, h);
    if st.norm(hh) <= st.precision then
      Ok(GsOut(Midpoint(x1, x4), 0))
    else
      var p2 := InnerPoint(x1, InvPhi2(iphi), hh, x2);
      var p3 := InnerPoint(x1, iphi, hh, x3);
      var v2 := ValueAt(st.func, p2, fx2);
      var v3 := ValueAt(st.func, p3, fx3);
      if fuel == 0 then
        Err(RecursionLimit)
      else
        var next :=
          if v2 < v3 then
            Gs(st, iphi, x1, p3, Some(Scale(iphi, hh)), None, Some(p2), None, Some(v2), fuel - 1)
          else
            Gs(st, iphi, p2, x4, Some(Scale(iphi, hh)), Some(p3), None, Some(v3), None, fuel - 1);
        AddCalls(next, Missing(fx2) + Missing(fx3))
  }

  /** Passes an error up unchanged, or adds `n` calls to the count. */
  function AddCalls(r: Result<GsOut>, n: nat): Result<GsOut> {
    match r
    case Err(e) => Err(e)
    case Ok(o) => Ok(GsOut(o.x, o.nfev + n))
  }

  /** Reference definition of the subdivision, with no cached values: the
      bracket is [x + a*dx, x + (a+w)*dx] and both inner points are evaluated
      afresh at every step. It returns the parameter `s` of the midpoint it
      stops at, the width of the last bracket and the number of subdivisions. */
  datatype RayOut = RayOut(s: real, width: real, steps: nat)

  function GsRay(st: Setup, iphi: real, x: Vec, dx: Vec, a: real, w: real, fuel: nat): (r: Result<RayOut>)
    requires |x| == |dx|
    ensures r.Err? ==> r.error == RecursionLimit
    decreases fuel
  {
    if st.norm(Scale(w, dx)) <= st.precision then
      Ok(RayOut(a + w / 2.0, w, 0))
    else if fuel == 0 then
      Err(RecursionLimit)
    else
      var s2 := a + InvPhi2(iphi) * w;
      var s3 := a + iphi * w;
      var next :=
        if st.func(Ray(x, dx, s2)) < st.func(Ray(x, dx, s3)) then
          GsRay(st, iphi, x, dx, a, iphi * w, fuel - 1)
        else
          GsRay(st, iphi, x, dx, s2, iphi * w, fuel - 1);
      OneMoreStep(next)
  }

  /** Passes an error up unchanged, or counts one more subdivision. */
  function OneMoreStep(r: Result<RayOut>): Result<RayOut> {
    match r
    case Err(e) => Err(e)
    case Ok(o) => Ok(RayOut(o.s, o.width, o.steps + 1))
  }

  /** A stopping point of the subdivision started on [a, a + w]: the last
      bracket has width w * iphi^steps, its norm along dx is within the
      precision, and it lies inside [a, a + w] with `s` at its midpoint. */
  ghost predicate Bracketed(st: Setup, iphi: real, dx: Vec, a: real, w: real, o: RayOut) {
    && o.width == w * Pow(iphi, o.steps)
    && st.norm(Scale(o.width, dx)) <= st.precision
    && a <= o.s - o.width / 2.0
    && o.s + o.width / 2.0 <= a + w
  }

  /** Every subdivision keeps the new bracket [a, a + iphi*w] or
      [a + iphi2*w, a + w] inside the old one and shrinks it by 1/φ; the
      search stops with a bracket whose norm is within the precision and
      returns its midpoint. */
  lemma {:induction false} GsRayBracket(st: Setup, iphi: real, x: Vec, dx: Vec, a: real, w: real, fuel: nat)
    requires |x| == |dx|
    requires 0.0 < iphi < 1.0
    requires w >= 0.0
    ensures var r := GsRay(st, iphi, x, dx, a, w, fuel);
      r.Ok? ==> r.value.steps <= fuel && Bracketed(st, iphi, dx, a, w, r.value)
    decreases fuel
  {
    if st.norm(Scale(w, dx)) > st.precision && fuel > 0 {
      var w' := iphi * w;
      var s2 := a + InvPhi2(iphi) * w;
      var a' := if st.func(Ray(x, dx, s2)) < st.func(Ray(x, dx, a + iphi * w)) then a else s2;
      assert GsRay(st, iphi, x, dx, a, w, fuel) == OneMoreStep(GsRay(st, iphi, x, dx, a', w', fuel - 1));
      GsRayBracket(st, iphi, x, dx, a', w', fuel - 1);
      var inner := GsRay(st, iphi, x, dx, a', w', fuel - 1);
      if inner.Ok? {
        BracketStep(st, iphi, dx, a, w, a', inner.value);
      }
    }
  }

  /** One subdivision step preserves `Bracketed` when the kept bracket starts
      at a or at a + iphi2*w. */
  lemma BracketStep(st: Setup, iphi: real, dx: Vec, a: real, w: real, a': real, o: RayOut)
    requires 0.0 < iphi < 1.0 && w >= 0.0
    requires a' == a || a' == a + InvPhi2(iphi) * w
    requires Bracketed(st, iphi, dx, a', iphi * w, o)
    ensures Bracketed(st, iphi, dx, a, w, RayOut(o.s, o.width, o.steps + 1))
  {
    var p := Pow(iphi, o.steps);
    Shrink(iphi, w);
    assert Pow(iphi, o.steps + 1) == iphi * p;
    Regroup(iphi, w, iphi * w, p, Pow(iphi, o.steps + 1), o.width);
  }

  lemma Regroup(c: real, w: real, w': real, p: real, q: real, width: real)
    requires w' == c * w && q == c * p && width == w' * p
    ensures width == w * q
  {
  }

  /** The arithmetic of one subdivision: the kept bracket, of width iphi*w,
      starts at a or at a + iphi2*w and ends inside [a, a + w]. */
  lemma Shrink(iphi: real, w: real)
    requires 0.0 < iphi < 1.0 && w >= 0.0
    ensures 0.0 <= iphi * w <= w
    ensures 0.0 <= InvPhi2(iphi) * w
    ensures InvPhi2(iphi) * w + iphi * w == w
  {
    assert w - iphi * w == (1.0 - iphi) * w;
  }

  /** `Ray(x, dx, a) + c * (w * dx)` is the point at parameter a + c*w. */
  lemma RayStep(x: Vec, dx: Vec, a: real, c: real, w: real)
    requires |x| == |dx|
    ensures Add(Ray(x, dx, a), Scale(c, Scale(w, dx))) == Ray(x, dx, a + c * w)
  {
    var lhs := Add(Ray(x, dx, a), Scale(c, Scale(w, dx)));
    forall i | 0 <= i < |x| ensures lhs[i] == Ray(x, dx, a + c * w)[i] {
      assert c * (w * dx[i]) == (c * w) * dx[i];
    }
  }

  lemma InnerPointOnRay(x: Vec, dx: Vec, a: real, c: real, w: real, x1: Vec, hh: Vec, given: Option<Vec>)
    requires |x| == |dx|
    requires x1 == Ray(x, dx, a)
    requires hh == Scale(w, dx)
    requires given.Some? ==> given.value == Ray(x, dx, a + c * w)
    ensures InnerPoint(x1, c, hh, given) == Ray(x, dx, a + c * w)
  {
    if given.None? {
      RayStep(x, dx, a, c, w);
    }
  }

  lemma ScaleScale(c: real, w: real, dx: Vec)
    ensures Scale(c, Scale(w, dx)) == Scale(c * w, dx)
  {
    forall i | 0 <= i < |dx| ensures Scale(c, Scale(w, dx))[i] == Scale(c * w, dx)[i] {
      assert c * (w * dx[i]) == (c * w) * dx[i];
    }
  }

  lemma RaySub(x: Vec, dx: Vec, a: real, w: real)
    requires |x| == |dx|
    ensures Sub(Ray(x, dx, a + w), Ray(x, dx, a)) == Scale(w, dx)
  {
    forall i | 0 <= i < |x| ensures Sub(Ray(x, dx, a + w), Ray(x, dx, a))[i] == Scale(w, dx)[i] {
      assert (a + w) * dx[i] - a * dx[i] == w * dx[i];
    }
  }

  lemma RayMidpoint(x: Vec, dx: Vec, a: real, w: real)
    requires |x| == |dx|
    ensures Midpoint(Ray(x, dx, a), Ray(x, dx, a + w)) == Ray(x, dx, a + w / 2.0)
  {
    var m := Midpoint(Ray(x, dx, a), Ray(x, dx, a + w));
    var r := Ray(x, dx, a + w / 2.0);
    forall i | 0 <= i < |x| ensures m[i] == r[i] {
      assert (a + w) * dx[i] + a * dx[i] == 2.0 * ((a + w / 2.0) * dx[i]);
    }
  }

  /** The bracket invariant of `_gs` on the ray x + s*dx: x1 and x4 are the
      ends of [a, a + w], h = x4 - x1, the inner points handed down sit at
      x1 + iphi2*h and x1 + iphi*h, and the cached values are func there. */
  ghost predicate OnRay(st: Setup, iphi: real, x: Vec, dx: Vec, a: real, w: real,
                        x1: Vec, x4: Vec, h: Option<Vec>, x2: Option<Vec>, x3: Option<Vec>,
                        fx2: Option<real>, fx3: Option<real>)
    requires |x| == |dx|
  {
    && x1 == Ray(x, dx, a)
    && x4 == Ray(x, dx, a + w)
    && (h.Some? ==> h.value == Scale(w, dx))
    && (x2.Some? ==> x2.value == Ray(x, dx, a + InvPhi2(iphi) * w))
    && (x3.Some? ==> x3.value == Ray(x, dx, a + iphi * w))
    && (fx2.Some? ==> fx2.value == st.func(Ray(x, dx, a + InvPhi2(iphi) * w)))
    && (fx3.Some? ==> fx3.value == st.func(Ray(x, dx, a + iphi * w)))
  }

  /** `_gs`'s result r and the reference's result ref agree: both succeed or
      both fail, r's point is the reference's point on the ray, and r made one
      call per reference step, less one, plus the m values it had to compute. */
  ghost predicate Agree(x: Vec, dx: Vec, r: Result<GsOut>, ref: Result<RayOut>, m: nat)
    requires |x| == |dx|
  {
    && (r.Ok? <==> ref.Ok?)
    && (r.Ok? ==> r.value.x == Ray(x, dx, ref.value.s))
    && (r.Ok? ==> r.value.nfev == (if ref.value.steps == 0 then 0 else ref.value.steps - 1 + m))
  }

  /** `_gs` with its cached points and values computes what the reference
      subdivision computes: the same point, and it fails exactly when the
      reference does. Because iphi² = 1 - iphi, the point handed down in either
      branch is exactly the inner point of the new bracket, so after the first
      step one new evaluation per step suffices: the call count is the number
      of subdivisions, minus one, plus the values not handed down. */
  lemma {:induction false} GsMatchesRay(st: Setup, iphi: real, x: Vec, dx: Vec, a: real, w: real,
                                        x1: Vec, x4: Vec, h: Option<Vec>, x2: Option<Vec>, x3: Option<Vec>,
                                        fx2: Option<real>, fx3: Option<real>, fuel: nat)
    requires IsInvPhi(iphi)
    requires |x| == |dx|
    requires OnRay(st, iphi, x, dx, a, w, x1, x4, h, x2, x3, fx2, fx3)
    ensures Agree(x, dx, Gs(st, iphi, x1, x4, h, x2, x3, fx2, fx3, fuel), GsRay(st, iphi, x, dx, a, w, fuel),
                  Missing(fx2) + Missing(fx3))
    decreases fuel, 2
  {
    var hh := Span(x1, x4, h);
    assert hh == Scale(w, dx) by {
      if h.None? { RaySub(x, dx, a, w); }
    }
    if st.norm(hh) <= st.precision {
      GsStop(st, iphi, x1, x4, h, x2, x3, fx2, fx3, fuel);
      GsRayStop(st, iphi, x, dx, a, w, fuel);
      RayMidpoint(x, dx, a, w);
    } else if fuel == 0 {
      GsOutOfFuel(st, iphi, x1, x4, h, x2, x3, fx2, fx3);
    } else {
      GsMatchesRayStep(st, iphi, x, dx, a, w, x1, x4, h, x2, x3, fx2, fx3, fuel);
    }
  }

  /** The inductive step of `GsMatchesRay`: a bracket still too wide, with
      recursion left. */
  lemma {:induction false} GsMatchesRayStep(st: Setup, iphi: real, x: Vec, dx: Vec, a: real, w: real,
                                            x1: Vec, x4: Vec, h: Option<Vec>, x2: Option<Vec>, x3: Option<Vec>,
                                            fx2: Option<real>, fx3: Option<real>, fuel: nat)
    requires IsInvPhi(iphi)
    requires |x| == |dx|
    requires OnRay(st, iphi, x, dx, a, w, x1, x4, h, x2, x3, fx2, fx3)
    requires st.norm(Scale(w, dx)) > st.precision
    requires fuel > 0
    ensures Agree(x, dx, Gs(st, iphi, x1, x4, h, x2, x3, fx2, fx3, fuel), GsRay(st, iphi, x, dx, a, w, fuel),
                  Missing(fx2) + Missing(fx3))
    decreases fuel, 1
  {
    var hh := Span(x1, x4, h);
    assert hh == Scale(w, dx) by {
      if h.None? { RaySub(x, dx, a, w); }
    }
    StepPoints(st, iphi, x, dx, a, w, x1, hh, x2, x3, fx2, fx3);
    var p2 := InnerPoint(x1, InvPhi2(iphi), hh, x2);
    var p3 := InnerPoint(x1, iphi, hh, x3);
    var v2 := ValueAt(st.func, p2, fx2);
    var v3 := ValueAt(st.func, p3, fx3);
    GsStep(st, iphi, x1, x4, h, x2, x3, fx2, fx3, fuel);
    GsRayStep(st, iphi, x, dx, a, w, fuel);
    if v2 < v3 {
      StepLeft(st, iphi, x, dx, a, w, x1, p2, p3, hh, v2, Missing(fx2) + Missing(fx3), fuel);
    } else {
      StepRight(st, iphi, x, dx, a, w, x4, p2, p3, hh, v3, Missing(fx2) + Missing(fx3), fuel);
    }
  }

  /** The inner points `_gs` uses, handed down or computed, lie on the ray at
      a + iphi2*w and a + iphi*w, and the values it uses are func there. */
  lemma StepPoints(st: Setup, iphi: real, x: Vec, dx: Vec, a: real, w: real,
                   x1: Vec, hh: Vec, x2: Option<Vec>, x3: Option<Vec>, fx2: Option<real>, fx3: Option<real>)
    requires |x| == |dx|
    requires x1 == Ray(x, dx, a)
    requires hh == Scale(w, dx)
    requires x2.Some? ==> x2.value == Ray(x, dx, a + InvPhi2(iphi) * w)
    requires x3.Some? ==> x3.value == Ray(x, dx, a + iphi * w)
    requires fx2.Some? ==> fx2.value == st.func(Ray(x, dx, a + InvPhi2(iphi) * w))
    requires fx3.Some? ==> fx3.value == st.func(Ray(x, dx, a + iphi * w))
    ensures InnerPoint(x1, InvPhi2(iphi), hh, x2) == Ray(x, dx, a + InvPhi2(iphi) * w)
    ensures InnerPoint(x1, iphi, hh, x3) == Ray(x, dx, a + iphi * w)
    ensures ValueAt(st.func, InnerPoint(x1, InvPhi2(iphi), hh, x2), fx2) == st.func(Ray(x, dx, a + InvPhi2(iphi) * w))
    ensures ValueAt(st.func, InnerPoint(x1, iphi, hh, x3), fx3) == st.func(Ray(x, dx, a + iphi * w))
  {
    InnerPointOnRay(x, dx, a, InvPhi2(iphi), w, x1, hh, x2);
    InnerPointOnRay(x, dx, a, iphi, w, x1, hh, x3);
  }

  /** The step that keeps [a, a + iphi*w]: the old x2 becomes the new x3. */
  lemma {:induction false} StepLeft(st: Setup, iphi: real, x: Vec, dx: Vec, a: real, w: real,
                                    x1: Vec, p2: Vec, p3: Vec, hh: Vec, v2: real, m: nat, fuel: nat)
    requires IsInvPhi(iphi)
    requires |x| == |dx|
    requires x1 == Ray(x, dx, a)
    requires p2 == Ray(x, dx, a + InvPhi2(iphi) * w)
    requires p3 == Ray(x, dx, a + iphi * w)
    requires hh == Scale(w, dx)
    requires v2 == st.func(Ray(x, dx, a + InvPhi2(iphi) * w))
    requires fuel > 0
    ensures Agree(x, dx, AddCalls(Gs(st, iphi, x1, p3, Some(Scale(iphi, hh)), None, Some(p2), None, Some(v2), fuel - 1), m),
                  OneMoreStep(GsRay(st, iphi, x, dx, a, iphi * w, fuel - 1)), m)
    decreases fuel, 0
  {
    KeepLeft(st, iphi, x, dx, a, w, x1, p2, p3, hh, v2);
    GsMatchesRay(st, iphi, x, dx, a, iphi * w, x1, p3, Some(Scale(iphi, hh)), None, Some(p2), None, Some(v2), fuel - 1);
    CombineStep(x, dx, Gs(st, iphi, x1, p3, Some(Scale(iphi, hh)), None, Some(p2), None, Some(v2), fuel - 1),
                GsRay(st, iphi, x, dx, a, iphi * w, fuel - 1), m);
  }

  /** The step that keeps [a + iphi2*w, a + w]: the old x3 becomes the new x2. */
  lemma {:induction false} StepRight(st: Setup, iphi: real, x: Vec, dx: Vec, a: real, w: real,
                                     x4: Vec, p2: Vec, p3: Vec, hh: Vec, v3: real, m: nat, fuel: nat)
    requires IsInvPhi(iphi)
    requires |x| == |dx|
    requires x4 == Ray(x, dx, a + w)
    requires p2 == Ray(x, dx, a + InvPhi2(iphi) * w)
    requires p3 == Ray(x, dx, a + iphi * w)
    requires hh == Scale(w, dx)
    requires v3 == st.func(Ray(x, dx, a + iphi * w))
    requires fuel > 0
    ensures Agree(x, dx, AddCalls(Gs(st, iphi, p2, x4, Some(Scale(iphi, hh)), Some(p3), None, Some(v3), None, fuel - 1), m),
                  OneMoreStep(GsRay(st, iphi, x, dx, a + InvPhi2(iphi) * w, iphi * w, fuel - 1)), m)
    decreases fuel, 0
  {
    var s2 := a + InvPhi2(iphi) * w;
    KeepRight(st, iphi, x, dx, a, w, x4, p2, p3, hh, v3);
    GsMatchesRay(st, iphi, x, dx, s2, iphi * w, p2, x4, Some(Scale(iphi, hh)), Some(p3), None, Some(v3), None, fuel - 1);
    CombineStep(x, dx, Gs(st, iphi, p2, x4, Some(Scale(iphi, hh)), Some(p3), None, Some(v3), None, fuel - 1),
                GsRay(st, iphi, x, dx, s2, iphi * w, fuel - 1), m);
  }

  /** `_gs` stops at the midpoint once the bracket is within the precision. */
  lemma GsStop(st: Setup, iphi: real, x1: Vec, x4: Vec, h: Option<Vec>, x2: Option<Vec>, x3: Option<Vec>,
               fx2: Option<real>, fx3: Option<real>, fuel: nat)
    requires |x4| == |x1|
    requires h.Some? ==> |h.value| == |x1|
    requires x2.Some? ==> |x2.value| == |x1|
    requires x3.Some? ==> |x3.value| == |x1|
    requires st.norm(Span(x1, x4, h)) <= st.precision
    ensures Gs(st, iphi, x1, x4, h, x2, x3, fx2, fx3, fuel) == Ok(GsOut(Midpoint(x1, x4), 0))
  {
  }

  lemma GsRayStop(st: Setup, iphi: real, x: Vec, dx: Vec, a: real, w: real, fuel: nat)
    requires |x| == |dx|
    requires st.norm(Scale(w, dx)) <= st.precision
    ensures GsRay(st, iphi, x, dx, a, w, fuel) == Ok(RayOut(a + w / 2.0, w, 0))
  {
  }

  /** A bracket still too wide with no recursion left fails. */
  lemma GsOutOfFuel(st: Setup, iphi: real, x1: Vec, x4: Vec, h: Option<Vec>, x2: Option<Vec>, x3: Option<Vec>,
                    fx2: Option<real>, fx3: Option<real>)
    requires |x4| == |x1|
    requires h.Some? ==> |h.value| == |x1|
    requires x2.Some? ==> |x2.value| == |x1|
    requires x3.Some? ==> |x3.value| == |x1|
    requires st.norm(Span(x1, x4, h)) > st.precision
    ensures Gs(st, iphi, x1, x4, h, x2, x3, fx2, fx3, 0).Err?
  {
  }

  /** One level of `_gs` when the bracket is still too wide. */
  lemma GsStep(st: Setup, iphi: real, x1: Vec, x4: Vec, h: Option<Vec>, x2: Option<Vec>, x3: Option<Vec>,
               fx2: Option<real>, fx3: Option<real>, fuel: nat)
    requires |x4| == |x1|
    requires h.Some? ==> |h.value| == |x1|
    requires x2.Some? ==> |x2.value| == |x1|
    requires x3.Some? ==> |x3.value| == |x1|
    requires st.norm(Span(x1, x4, h)) > st.precision
    requires fuel > 0
    ensures var hh := Span(x1, x4, h);
            var p2 := InnerPoint(x1, InvPhi2(iphi), hh, x2);
            var p3 := InnerPoint(x1, iphi, hh, x3);
            var v2 := ValueAt(st.func, p2, fx2);
            var v3 := ValueAt(st.func, p3, fx3);
      Gs(st, iphi, x1, x4, h, x2, x3, fx2, fx3, fuel) ==
        AddCalls(if v2 < v3 then Gs(st, iphi, x1, p3, Some(Scale(iphi, hh)), None, Some(p2), None, Some(v2), fuel - 1)
                 else Gs(st, iphi, p2, x4, Some(Scale(iphi, hh)), Some(p3), None, Some(v3), None, fuel - 1),
                 Missing(fx2) + Missing(fx3))
  {
  }

  /** One level of the reference subdivision when the bracket is still too
      wide. */
  lemma GsRayStep(st: Setup, iphi: real, x: Vec, dx: Vec, a: real, w: real, fuel: nat)
    requires |x| == |dx|
    requires st.norm(Scale(w, dx)) > st.precision
    requires fuel > 0
    ensures GsRay(st, iphi, x, dx, a, w, fuel) ==
      OneMoreStep(if st.func(Ray(x, dx, a + InvPhi2(iphi) * w)) < st.func(Ray(x, dx, a + iphi * w))
                  then GsRay(st, iphi, x, dx, a, iphi * w, fuel - 1)
                  else GsRay(st, iphi, x, dx, a + InvPhi2(iphi) * w, iphi * w, fuel - 1))
  {
  }

  /** One more subdivision on both sides: `_gs` adds the m values it computed
      to the count of the call it returns, and the reference counts one more
      step. */
  lemma CombineStep(x: Vec, dx: Vec, r': Result<GsOut>, ref': Result<RayOut>, m: nat)
    requires |x| == |dx|
    requires Agree(x, dx, r', ref', 1)
    ensures Agree(x, dx, AddCalls(r', m), OneMoreStep(ref'), m)
  {
  }

  /** Keeping [a, a + iphi*w]: the old x2 is the new x3, by iphi² = 1 - iphi. */
  lemma KeepLeft(st: Setup, iphi: real, x: Vec, dx: Vec, a: real, w: real,
                 x1: Vec, p2: Vec, p3: Vec, hh: Vec, v2: real)
    requires IsInvPhi(iphi)
    requires |x| == |dx|
    requires x1 == Ray(x, dx, a)
    requires p2 == Ray(x, dx, a + InvPhi2(iphi) * w)
    requires p3 == Ray(x, dx, a + iphi * w)
    requires hh == Scale(w, dx)
    requires v2 == st.func(Ray(x, dx, a + InvPhi2(iphi) * w))
    ensures OnRay(st, iphi, x, dx, a, iphi * w, x1, p3, Some(Scale(iphi, hh)), None, Some(p2), None, Some(v2))
  {
    ScaleScale(iphi, w, dx);
    assert iphi * (iphi * w) == InvPhi2(iphi) * w by {
      assert iphi * (iphi * w) == (iphi * iphi) * w;
    }
  }

  /** Keeping [a + iphi2*w, a + w]: the old x3 is the new x2. */
  lemma KeepRight(st: Setup, iphi: real, x: Vec, dx: Vec, a: real, w: real,
                  x4: Vec, p2: Vec, p3: Vec, hh: Vec, v3: real)
    requires IsInvPhi(iphi)
    requires |x| == |dx|
    requires x4 == Ray(x, dx, a + w)
    requires p2 == Ray(x, dx, a + InvPhi2(iphi) * w)
    requires p3 == Ray(x, dx, a + iphi * w)
    requires hh == Scale(w, dx)
    requires v3 == st.func(Ray(x, dx, a + iphi * w))
    ensures var s2 := a + InvPhi2(iphi) * w;
      OnRay(st, iphi, x, dx, s2, iphi * w, p2, x4, Some(Scale(iphi, hh)), Some(p3), None, Some(v3), None)
  {
    ScaleScale(iphi, w, dx);
    var s2 := a + InvPhi2(iphi) * w;
    assert s2 + iphi * w == a + w;
    assert s2 + InvPhi2(iphi) * (iphi * w) == a + iphi * w by {
      assert (1.0 - iphi) * (iphi * w) == iphi * w - (iphi * iphi) * w;
    }
  }

  // ---------------------------------------------------------------------
  // `goldensection`: bracketing loop, then `_gs`
  // ---------------------------------------------------------------------

  /** The dictionary `goldensection` returns: keys 'x', 't' and 'nfev' only.
      `t` is `None` where numpy's average is not a finite number. */
  datatype GoldenSectionDict = GoldenSectionDict(x: Vec, t: Option<real>, nfev: nat)

  /** Bracketing trial k succeeds: f(x + 2^k dx) > f(x). */
  predicate Rises(func: Vec -> real, x: Vec, dx: Vec, k: nat)
    requires |x| == |dx|
  {
    func(Ray(x, dx, Pow2(k))) > func(x)
  }

  /** The first of the trials k, ..., 63 that succeeds, if any. */
  function FirstRise(func: Vec -> real, x: Vec, dx: Vec, k: nat): Option<nat>
    requires |x| == |dx|
    decreases 64 - k
  {
    if k >= 64 then None
    else if Rises(func, x, dx, k) then Some(k)
    else FirstRise(func, x, dx, k + 1)
  }

  lemma {:induction false} FirstRiseSpec(func: Vec -> real, x: Vec, dx: Vec, k: nat)
    requires |x| == |dx|
    requires k <= 64
    ensures FirstRise(func, x, dx, k).None? <==> forall j :: k <= j < 64 ==> !Rises(func, x, dx, j)
    ensures FirstRise(func, x, dx, k).Some? ==>
      var m := FirstRise(func, x, dx, k).value;
      && k <= m < 64
      && Rises(func, x, dx, m)
      && forall j :: k <= j < m ==> !Rises(func, x, dx, j)
    decreases 64 - k
  {
    if k < 64 && !Rises(func, x, dx, k) {
      FirstRiseSpec(func, x, dx, k + 1);
    }
  }

  /** `np.average(v)`, `None` for an empty array (numpy's nan). */
  function Average(v: seq<real>): Option<real> {
    if |v| == 0 then None else Some(Sum(v) / (|v| as real))
  }

  /** `np.average((xopt - x) / dx)`; a zero entry of dx makes numpy divide by
      zero, giving an infinite or nan average (`None`). */
  function StepEstimate(xopt: Vec, x: Vec, dx: Vec): Option<real>
    requires |xopt| == |x| == |dx|
  {
    if NoZeroEntry(dx) then Average(Quotients(Sub(xopt, x), dx)) else None
  }

  /** The entrywise quotient `num / den`. */
  function Quotients(num: Vec, den: Vec): (r: seq<real>)
    requires |num| == |den|
    requires NoZeroEntry(den)
    ensures |r| == |num|
  {
    seq(|num|, i requires 0 <= i < |num| => num[i] / den[i])
  }

  lemma {:induction false} SumConstant(v: seq<real>, c: real)
    requires forall i :: 0 <= i < |v| ==> v[i] == c
    ensures Sum(v) == (|v| as real) * c
  {
    if |v| > 0 {
      SumConstant(v[1..], c);
    }
  }

  /** For a point on the ray, the averaged step recovers its parameter. */
  lemma StepEstimateOnRay(x: Vec, dx: Vec, s: real)
    requires |x| == |dx| >= 1
    requires NoZeroEntry(dx)
    ensures StepEstimate(Ray(x, dx, s), x, dx) == Some(s)
  {
    var d := Sub(Ray(x, dx, s), x);
    var q := Quotients(d, dx);
    forall i | 0 <= i < |q| ensures q[i] == s {
      assert d[i] == s * dx[i];
      assert (s * dx[i]) / dx[i] == s;
    }
    AverageConstant(q, s);
  }

  lemma AverageConstant(v: seq<real>, c: real)
    requires |v| >= 1
    requires forall i :: 0 <= i < |v| ==> v[i] == c
    ensures Average(v) == Some(c)
  {
    SumConstant(v, c);
    var n := |v| as real;
    assert n * c / n == c;
    assert Sum(v) / n == c;
  }

  /** What `goldensection` computes, as a function of its inputs. */
  function GoldenSectionSpec(func: Vec -> real, x: Vec, dx: Vec, norm: Vec -> real, iphi: real,
                             fuel: nat, precision: real): (r: Result<GoldenSectionDict>)
    requires |x| == |dx|
    ensures r.Ok? ==> |r.value.x| == |x|
  {
    match FirstRise(func, x, dx, 0)
    case None => Err(BracketingFailed)
    case Some(k) =>
      match Gs(Setup(func, norm, precision), iphi, x, Ray(x, dx, Pow2(k)), None, None, None, None, None, fuel)
      case Err(e) => Err(e)
      case Ok(o) => Ok(GoldenSectionDict(o.x, StepEstimate(o.x, x, dx), 2 * (k + 1) + o.nfev))
  }

  /** `goldensection(func, x, dx, precision=1e-6)`: double t = 1, 2, 4, ... for
      at most 64 trials until f(x + t*dx) > f(x) (two calls to func per trial),
      raise RuntimeError if no trial succeeds, then subdivide [x, x + t*dx]. */
  method GoldenSection(func: Vec -> real, x: Vec, dx: Vec, norm: Vec -> real, iphi: real,
                       fuel: nat, precision: real := 0.000001)
    returns (r: Result<GoldenSectionDict>)
    requires |x| == |dx|
    ensures r == GoldenSectionSpec(func, x, dx, norm, iphi, fuel, precision)
    ensures r == Err(BracketingFailed) <==> forall j :: 0 <= j < 64 ==> !Rises(func, x, dx, j)
  {
    FirstRiseSpec(func, x, dx, 0);
    var nfev: nat := 0;
    var t := 1.0;
    var k := 0;
    while k < 64
      invariant 0 <= k <= 64
      invariant t == Pow2(k)
      invariant nfev == 2 * k
      invariant FirstRise(func, x, dx, 0) == FirstRise(func, x, dx, k)
    {
      var moved := func(Ray(x, dx, t));
      var start := func(x);
      nfev := nfev + 2;
      if moved > start {
        break;
      }
      t := t * 2.0;
      k := k + 1;
    }
    if k == 64 {
      assert FirstRise(func, x, dx, 64) == None;
      return Err(BracketingFailed);
    }
    assert FirstRise(func, x, dx, 0) == Some(k);
    var gs := Gs(Setup(func, norm, precision), iphi, x, Ray(x, dx, t), None, None, None, None, None, fuel);
    if gs.Err? {
      return Err(gs.error);
    }
    var xopt := gs.value.x;
    nfev := nfev + gs.value.nfev;
    r := Ok(GoldenSectionDict(xopt, StepEstimate(xopt, x, dx), nfev));
  }

  /** `goldensection` raises only RuntimeError (bracketing) and
      RecursionError (subdivision). */
  lemma GoldenSectionErrors(func: Vec -> real, x: Vec, dx: Vec, norm: Vec -> real, iphi: real,
                            fuel: nat, precision: real)
    requires |x| == |dx|
    ensures var r := GoldenSectionSpec(func, x, dx, norm, iphi, fuel, precision);
      r.Err? ==> r.error == BracketingFailed || r.error == RecursionLimit
  {
  }

  /** The outcome of `goldensection` in terms of the reference subdivision on
      [0, 2^k], k the first successful bracketing trial: on success the point
      lies on the ray inside the bracket, func was called 2(k+1) times by the
      bracketing and once per subdivision plus once more by `_gs`, and `t` is
      the point's step whenever dx has no zero entry. */
  lemma GoldenSectionOutcome(func: Vec -> real, x: Vec, dx: Vec, norm: Vec -> real, iphi: real,
                             fuel: nat, precision: real)
    requires |x| == |dx|
    requires IsInvPhi(iphi)
    ensures var r := GoldenSectionSpec(func, x, dx, norm, iphi, fuel, precision);
            var k := FirstRise(func, x, dx, 0);
      && (r == Err(BracketingFailed) <==> k.None?)
      && (k.Some? ==>
            var ref := GsRay(Setup(func, norm, precision), iphi, x, dx, 0.0, Pow2(k.value), fuel);
            && (r.Ok? <==> ref.Ok?)
            && (r.Err? ==> r.error == BracketingFailed || r.error == RecursionLimit)
            && (r.Ok? ==>
                  && r.value.x == Ray(x, dx, ref.value.s)
                  && 0.0 <= ref.value.s <= Pow2(k.value)
                  && r.value.nfev == 2 * (k.value + 1) + (if ref.value.steps == 0 then 0 else ref.value.steps + 1)
                  && (|x| >= 1 && NoZeroEntry(dx) ==> r.value.t == Some(ref.value.s))
                  && (!NoZeroEntry(dx) ==> r.value.t == None)))
  {
    var k := FirstRise(func, x, dx, 0);
    if k.Some? {
      var st := Setup(func, norm, precision);
      var w := Pow2(k.value);
      assert Ray(x, dx, 0.0) == x by {
        forall i | 0 <= i < |x| ensures Ray(x, dx, 0.0)[i] == x[i] { }
      }
      assert OnRay(st, iphi, x, dx, 0.0, w, x, Ray(x, dx, w), None, None, None, None, None);
      GsMatchesRay(st, iphi, x, dx, 0.0, w, x, Ray(x, dx, w), None, None, None, None, None, fuel);
      GsRayBracket(st, iphi, x, dx, 0.0, w, fuel);
      var ref := GsRay(st, iphi, x, dx, 0.0, w, fuel);
      if ref.Ok? {
        var s := ref.value.s;
        var width := ref.value.width;
        assert 0.0 <= width by {
          PowNonNegative(iphi, ref.value.steps);
        }
        if |x| >= 1 && NoZeroEntry(dx) {
          StepEstimateOnRay(x, dx, s);
        }
      }
    }
  }

  lemma {:induction false} PowNonNegative(b: real, k: nat)
    requires b >= 0.0
    ensures Pow(b, k) >= 0.0
  {
    if k > 0 {
      PowNonNegative(b, k - 1);
    }
  }

  lemma {:induction false} PowPositive(b: real, k: nat)
    requires b > 0.0
    ensures Pow(b, k) > 0.0
  {
    if k > 0 {
      PowPositive(b, k - 1);
    }
  }

  // ---------------------------------------------------------------------
  // `backtracking`: Armijo sufficient decrease, on scalars
  // ---------------------------------------------------------------------

  /** The dictionary `backtracking` returns: 'x', 't', 'nfev' and 'njacev'. */
  datatype BacktrackingDict = BacktrackingDict(x: real, t: real, nfev: nat, njacev: nat)

  /** The trial point x + t*dx. */
  function Moved(x: real, t: real, dx: real): real {
    x + t * dx
  }

  /** The value the trial point must not exceed: f(x) + alpha*t*jac(x)*dx,
      alpha times the decrease the linear extrapolation predicts. */
  function ArmijoBound(fx: real, alpha: real, t: real, slope: real, dx: real): real {
    fx + alpha * t * slope * dx
  }

  /** The Armijo condition the loop waits for:
      f(x + t*dx) <= f(x) + alpha*t*jac(x)*dx. */
  predicate Armijo(func: real -> real, jac: real -> real, x: real, dx: real, alpha: real, t: real) {
    func(Moved(x, t, dx)) <= ArmijoBound(func(x), alpha, t, jac(x), dx)
  }

  /** The Armijo condition as a test on the step t alone. */
  function Accepts(func: real -> real, jac: real -> real, x: real, dx: real, alpha: real): real -> bool {
    t => Armijo(func, jac, x, dx, alpha, t)
  }

  /** Tests k, k + 1, ..., fuel - 1 of the loop, the k-th with step
      beta^k: the number of tests run when one passes, or None when none up
      to the fuel does. */
  function Tests(accept: real -> bool, beta: real, k: nat, fuel: nat): (r: Option<nat>)
    ensures r.Some? ==> k < r.value <= fuel
    decreases fuel - k
  {
    if k >= fuel then None
    else if accept(Pow(beta, k)) then Some(k + 1)
    else Tests(accept, beta, k + 1, fuel)
  }

  /** What `backtracking` computes, as a function of its inputs: the n-th
      test uses the step beta^(n-1) and costs two calls to `func` and one to
      `jac`. */
  function BacktrackingSpec(func: real -> real, jac: real -> real, x: real, dx: real, fuel: nat,
                            alpha: real, beta: real): Result<BacktrackingDict>
  {
    if alpha <= 0.0 || alpha >= 0.5 then Err(AlphaOutOfBounds)
    else match Tests(Accepts(func, jac, x, dx, alpha), beta, 0, fuel)
      case None => Err(FuelExhausted)
      case Some(n) =>
        var t := Pow(beta, n - 1);
        Ok(BacktrackingDict(Moved(x, t, dx), t, 2 * n, n))
  }

  /** `backtracking(func, jac, x, dx, alpha=0.3, beta=0.8)`: reject alpha
      outside (0, 0.5), then shrink t = 1, beta, beta², ... until the Armijo
      condition holds, calling func twice and jac once per test. beta is not
      checked: the source builds a ValueError for it but never raises it. The
      loop has no bound in the source; `fuel` bounds the number of tests. */
  method Backtracking(func: real -> real, jac: real -> real, x: real, dx: real, fuel: nat,
                      alpha: real := 0.3, beta: real := 0.8)
    returns (r: Result<BacktrackingDict>)
    ensures r == BacktrackingSpec(func, jac, x, dx, fuel, alpha, beta)
  {
    if alpha <= 0.0 || alpha >= 0.5 {
      return Err(AlphaOutOfBounds);
    }
    ghost var accept := Accepts(func, jac, x, dx, alpha);
    var nfev: nat := 0;
    var njacev: nat := 0;
    var t := 1.0;
    var k := 0;
    while k < fuel
      invariant 0 <= k <= fuel
      invariant nfev == 2 * k && njacev == k
      invariant t == Pow(beta, k)
      invariant Tests(accept, beta, k, fuel) == Tests(accept, beta, 0, fuel)
    {
      var moved := func(Moved(x, t, dx));
      var start := func(x);
      nfev := nfev + 2;
      var slope := jac(x);
      njacev := njacev + 1;
      if !(moved > ArmijoBound(start, alpha, t, slope, dx)) {
        ArmijoHolds(func, jac, x, dx, alpha, t);
        assert accept(Pow(beta, k));
        assert Tests(accept, beta, 0, fuel) == Some(k + 1);
        return Ok(BacktrackingDict(Moved(x, t, dx), t, nfev, njacev));
      }
      ArmijoFails(func, jac, x, dx, alpha, t);
      PowStep(beta, k, t, t * beta);
      t := t * beta;
      k := k + 1;
    }
    return Err(FuelExhausted);
  }

  /** The tests from k on, when none before k passed: either the first
      power of beta to pass is accepted, or none up to the fuel passes. */
  lemma {:induction false} TestsOutcome(accept: real -> bool, beta: real, k: nat, fuel: nat)
    requires k <= fuel
    requires forall j :: 0 <= j < k ==> !accept(Pow(beta, j))
    ensures var r := Tests(accept, beta, k, fuel);
      && (r.Some? ==>
            && k + 1 <= r.value <= fuel
            && accept(Pow(beta, r.value - 1))
            && forall j :: 0 <= j < r.value - 1 ==> !accept(Pow(beta, j)))
      && (r.None? ==> forall j :: 0 <= j < fuel ==> !accept(Pow(beta, j)))
    decreases fuel - k
  {
    if k < fuel && !accept(Pow(beta, k)) {
      TestsOutcome(accept, beta, k + 1, fuel);
    }
  }

  /** alpha outside (0, 0.5) raises ValueError. Otherwise the accepted step is
      t = beta^(n-1) after n tests, with 2n calls to func and n to jac; it
      satisfies the Armijo condition and no earlier power of beta does. When
      the fuel runs out, no power of beta below it passed. */
  lemma BacktrackingOutcome(func: real -> real, jac: real -> real, x: real, dx: real, fuel: nat,
                            alpha: real, beta: real)
    ensures var r := BacktrackingSpec(func, jac, x, dx, fuel, alpha, beta);
      && (r == Err(AlphaOutOfBounds) <==> alpha <= 0.0 || alpha >= 0.5)
      && (r.Ok? || r == Err(AlphaOutOfBounds) || r == Err(FuelExhausted))
      && (r.Ok? ==>
            var d := r.value;
            && 1 <= d.njacev <= fuel
            && d.nfev == 2 * d.njacev
            && d.t == Pow(beta, d.njacev - 1)
            && d.x == Moved(x, d.t, dx)
            && Armijo(func, jac, x, dx, alpha, d.t)
            && forall j :: 0 <= j < d.njacev - 1 ==> !Armijo(func, jac, x, dx, alpha, Pow(beta, j)))
      && (r == Err(FuelExhausted) ==>
            forall j :: 0 <= j < fuel ==> !Armijo(func, jac, x, dx, alpha, Pow(beta, j)))
  {
    if 0.0 < alpha < 0.5 {
      var accept := Accepts(func, jac, x, dx, alpha);
      TestsOutcome(accept, beta, 0, fuel);
      forall j | 0 <= j ensures accept(Pow(beta, j)) == Armijo(func, jac, x, dx, alpha, Pow(beta, j)) { }
    }
  }

  lemma ArmijoHolds(func: real -> real, jac: real -> real, x: real, dx: real, alpha: real, t: real)
    requires !(func(Moved(x, t, dx)) > ArmijoBound(func(x), alpha, t, jac(x), dx))
    ensures Armijo(func, jac, x, dx, alpha, t)
  {
  }

  lemma PowStep(b: real, k: nat, t: real, t': real)
    requires t == Pow(b, k) && t' == t * b
    ensures t' == Pow(b, k + 1)
  {
  }

  lemma ArmijoFails(func: real -> real, jac: real -> real, x: real, dx: real, alpha: real, t: real)
    requires func(Moved(x, t, dx)) > ArmijoBound(func(x), alpha, t, jac(x), dx)
    ensures !Armijo(func, jac, x, dx, alpha, t)
  {
  }

  /** An accepted step strictly decreases the objective when dx is a descent
      direction (jac(x)*dx < 0), alpha > 0 and beta > 0. */
  lemma ArmijoStepDecreases(func: real -> real, jac: real -> real, x: real, dx: real,
                            alpha: real, beta: real, k: nat)
    requires alpha > 0.0 && beta > 0.0
    requires jac(x) * dx < 0.0
    requires Armijo(func, jac, x, dx, alpha, Pow(beta, k))
    ensures func(Moved(x, Pow(beta, k), dx)) < func(x)
  {
    var t := Pow(beta, k);
    PowPositive(beta, k);
    NegativeDecrease(alpha * t, jac(x), dx);
  }

  lemma NegativeDecrease(m: real, g: real, dx: real)
    requires m > 0.0 && g * dx < 0.0
    ensures m * g * dx < 0.0
  {
    assert m * g * dx == m * (g * dx);
  }

  /** As written, beta = 2 passes unchecked and makes the step grow: with an
      objective that rejects t = 1 but accepts t = 2 the search returns the
      step 2, outside (0, 1]. */
  method OutOfRangeBetaAccepted() returns (r: Result<BacktrackingDict>)
    ensures r == Ok(BacktrackingDict(2.0, 2.0, 4, 2))
  {
    var bump: real -> real := y => if y == 1.0 then 1.0 else 0.0;
    var flat: real -> real := _ => 0.0;
    r := Backtracking(bump, flat, 0.0, 1.0, 2, 0.3, 2.0);
    assert Pow(2.0, 0) == 1.0 && Pow(2.0, 1) == 2.0;
    assert !Armijo(bump, flat, 0.0, 1.0, 0.3, 1.0);
    assert Armijo(bump, flat, 0.0, 1.0, 0.3, 2.0);
  }

  /** `backtracking` with the beta check raised as the alpha check is: beta
      outside (0, 1) is rejected, and every accepted step then lies in (0, 1]
      and satisfies the Armijo condition. */
  method BacktrackingIntended(func: real -> real, jac: real -> real, x: real, dx: real, fuel: nat,
                              alpha: real := 0.3, beta: real := 0.8)
    returns (r: Result<BacktrackingDict>)
    ensures r == Err(AlphaOutOfBounds) <==> alpha <= 0.0 || alpha >= 0.5
    ensures r == Err(BetaOutOfBounds) <==> 0.0 < alpha < 0.5 && (beta <= 0.0 || beta >= 1.0)
    ensures r.Ok? || r == Err(AlphaOutOfBounds) || r == Err(BetaOutOfBounds) || r == Err(FuelExhausted)
    ensures r.Ok? ==>
      && 0.0 < r.value.t <= 1.0
      && r.value.x == Moved(x, r.value.t, dx)
      && Armijo(func, jac, x, dx, alpha, r.value.t)
  {
    if alpha <= 0.0 || alpha >= 0.5 {
      return Err(AlphaOutOfBounds);
    }
    if beta <= 0.0 || beta >= 1.0 {
      return Err(BetaOutOfBounds);
    }
    r := Backtracking(func, jac, x, dx, fuel, alpha, beta);
    BacktrackingOutcome(func, jac, x, dx, fuel, alpha, beta);
    if r.Ok? {
      PowInUnit(beta, r.value.njacev - 1);
    }
  }

  lemma {:induction false} PowInUnit(b: real, k: nat)
    requires 0.0 < b < 1.0
    ensures 0.0 < Pow(b, k) <= 1.0
  {
    if k > 0 {
      PowInUnit(b, k - 1);
      assert b * Pow(b, k - 1) <= Pow(b, k - 1);
    }
  }
}

=== FILE: results.dfy ===
/** The records that line searches and optimisers report (src/result.py). */
module Results {
  import opened Arrays

  /** A Python value stored in a result field: `None`, an array, a string or
      a list of points. */
  datatype Value = NoneValue | Vector(v: Vec) | Text(s: string) | Path(points: seq<Vec>)

  /** What a line search found: whether it succeeded, the point and the step. */
  datatype LineSearchResult = LineSearchResult(success: bool, x: Vec, t: real)

  /** What an optimiser found, with its evaluation counts. */
  datatype OptimisationResult = OptimisationResult(
    success: bool,
    x: Vec,
    jac: Value,
    niter: int,
    nfev: nat,
    njev: nat,
    nhev: nat,
    info: Value,
    solutionPath: Value)

  /** `kwargs[key] if key in kwargs else None` */
  function Keyword(kwargs: map<string, Value>, key: string): Value {
    if key in kwargs then kwargs[key] else NoneValue
  }

  /** `OptimisationResult(success, x, niter, nfev, njev=0, nhev=0, **kwargs)`:
      the positional fields are stored as given, `jac`, `info` and the solution
      path come from the keywords `jac`, `info` and `path`, and every other
      keyword is ignored. */
  function NewOptimisationResult(success: bool, x: Vec, niter: int, nfev: nat,
                                 njev: nat := 0, nhev: nat := 0,
                                 kwargs: map<string, Value> := map[]): (r: OptimisationResult)
    ensures r.success == success && r.x == x && r.niter == niter
    ensures r.nfev == nfev && r.njev == njev && r.nhev == nhev
    ensures "jac" in kwargs ==> r.jac == kwargs["jac"]
    ensures "jac" !in kwargs ==> r.jac == NoneValue
    ensures "info" in kwargs ==> r.info == kwargs["info"]
    ensures "info" !in kwargs ==> r.info == NoneValue
    ensures "path" in kwargs ==> r.solutionPath == kwargs["path"]
    ensures "path" !in kwargs ==> r.solutionPath == NoneValue
  {
    OptimisationResult(
      success := success,
      x := x,
      jac := Keyword(kwargs, "jac"),
      niter := niter,
      nfev := nfev,
      njev := njev,
      nhev := nhev,
      info := Keyword(kwargs, "info"),
      solutionPath := Keyword(kwargs, "path"))
  }

  /** Left to their defaults, the Jacobian and Hessian counts are zero and
      the Jacobian, the information and the solution path are `None`. */
  lemma Defaults(success: bool, x: Vec, niter: int, nfev: nat)
    ensures var r := NewOptimisationResult(success, x, niter, nfev);
      r.njev == 0 && r.nhev == 0 &&
      r.jac == NoneValue && r.info == NoneValue && r.solutionPath == NoneValue
  {
  }

  /** The solution-path status printed by `__repr__`. */
  function PathStatus(r: OptimisationResult): (s: string)
    ensures s == "available" <==> r.solutionPath != NoneValue
    ensures s == "unavailable" <==> r.solutionPath == NoneValue
  {
    if r.solutionPath != NoneValue then "available" else "unavailable"
  }

  /** The last line of `__repr__` (the source spells the label "soution"). */
  function PathStatusLine(r: OptimisationResult): string {
    "soution path: " + PathStatus(r)
  }
}

=== FILE: wrappers.dfy ===
/** The evaluation-counting wrapper (src/wrappers.py). */
module Wrappers {
  import opened Errors
  import opened Arrays

  /** Wraps an objective with an optional Jacobian and Hessian, and counts
      how often each is called. */
  class ObjectiveFunctionWrapper {
    const objective: Vec -> real
    const jacobian: Option<Vec -> Vec>
    const hessian: Option<Vec -> Matrix>
    var nfev: nat
    var njev: nat
    var nhev: nat

    /** `__init__(func, jac=None, hes=None)`: store the callables as given and
        start every counter at zero. */
    constructor (func: Vec -> real, jac: Option<Vec -> Vec> := None, hes: Option<Vec -> Matrix> := None)
      ensures objective == func && jacobian == jac && hessian == hes
      ensures nfev == 0 && njev == 0 && nhev == 0
    {
      objective := func;
      jacobian := jac;
      hessian := hes;
      nfev := 0;
      njev := 0;
      nhev := 0;
    }

    /** `f(x)`: count the call, then delegate to the objective. */
    method F(x: Vec) returns (y: real)
      modifies this
      ensures nfev == old(nfev) + 1 && njev == old(njev) && nhev == old(nhev)
      ensures y == objective(x)
    {
      nfev := nfev + 1;
      y := objective(x);
    }

    /** `jac(x)`: count the call, then delegate. The count is raised even when
        no Jacobian was supplied, in which case calling None raises TypeError;
        there is no numerical fallback. */
    method Jac(x: Vec) returns (r: Result<Vec>)
      modifies this
      ensures njev == old(njev) + 1 && nfev == old(nfev) && nhev == old(nhev)
      ensures jacobian.None? ==> r == Err(NoneNotCallable)
      ensures jacobian.Some? ==> r == Ok(jacobian.value(x))
    {
      njev := njev + 1;
      if jacobian.None? {
        return Err(NoneNotCallable);
      }
      r := Ok(jacobian.value(x));
    }

    /** `hes(x)`: count the call, then delegate, as `jac` does. */
    method Hes(x: Vec) returns (r: Result<Matrix>)
      modifies this
      ensures nhev == old(nhev) + 1 && nfev == old(nfev) && njev == old(njev)
      ensures hessian.None? ==> r == Err(NoneNotCallable)
      ensures hessian.Some? ==> r == Ok(hessian.value(x))
    {
      nhev := nhev + 1;
      if hessian.None? {
        return Err(NoneNotCallable);
      }
      r := Ok(hessian.value(x));
    }
  }

  /** Calling `f` on each point in turn raises `nfev` by the number of points,
      leaves the other counters alone, and returns the objective's values. */
  method EvaluateAll(w: ObjectiveFunctionWrapper, xs: seq<Vec>) returns (ys: seq<real>)
    modifies w
    ensures w.nfev == old(w.nfev) + |xs| && w.njev == old(w.njev) && w.nhev == old(w.nhev)
    ensures |ys| == |xs| && forall i :: 0 <= i < |xs| ==> ys[i] == w.objective(xs[i])
  {
    ys := [];
    var i := 0;
    while i < |xs|
      invariant 0 <= i <= |xs|
      invariant w.nfev == old(w.nfev) + i && w.njev == old(w.njev) && w.nhev == old(w.nhev)
      invariant |ys| == i && forall j :: 0 <= j < i ==> ys[j] == w.objective(xs[j])
    {
      var y := w.F(xs[i]);
      ys := ys + [y];
      i := i + 1;
    }
  }

  /** A fresh wrapper that is asked for n values, m Jacobians and k Hessians
      reports exactly n, m and k calls, whether or not a Jacobian or Hessian
      was supplied. */
  method CountCalls(func: Vec -> real, jac: Option<Vec -> Vec>, hes: Option<Vec -> Matrix>,
                    x: Vec, n: nat, m: nat, k: nat)
    returns (nfev: nat, njev: nat, nhev: nat)
    ensures nfev == n && njev == m && nhev == k
  {
    var w := new ObjectiveFunctionWrapper(func, jac, hes);
    var i := 0;
    while i < n
      invariant 0 <= i <= n && w.nfev == i && w.njev == 0 && w.nhev == 0
    {
      var _ := w.F(x);
      i := i + 1;
    }
    i := 0;
    while i < m
      invariant 0 <= i <= m && w.nfev == n && w.njev == i && w.nhev == 0
    {
      var _ := w.Jac(x);
      i := i + 1;
    }
    i := 0;
    while i < k
      invariant 0 <= i <= k && w.nfev == n && w.njev == m && w.nhev == i
    {
      var _ := w.Hes(x);
      i := i + 1;
    }
    nfev, njev, nhev := w.nfev, w.njev, w.nhev;
  }
}
